=== FILE: README.md ===
# Encrypted file vault: a Dafny model of its request pipeline

The system is an Express back end that keeps users' files encrypted and signed at rest. A
request arrives with an access token already verified (`sub`, e.g. `auth0|634533525615e6a1bdb52285`).

- **Provisioning.** On first login (`checkOrCreateKeys`) the user gets two keys in a transit
  cryptographic engine: `<user>-aes256-gcm96` for encryption and `<user>-ecdsa-p521` for
  signatures. A `keysCreated` flag in the identity provider's `app_metadata` records that this
  happened.
- **Upload** (`signEncryptStore`). Each uploaded file is signed (sha2-512, asn1) and encrypted
  under the user's keys. The ciphertext goes to `/data/<user>/data/<name>` and the signature to
  `/data/<user>/sign/<name>.sha` in the content store's mutable file system.
- **Listing** (`listUserFiles`). A depth-first walk below the user's data root.
- **Read, delete and share** (`readDecryptVerify`, `deleteFile`, `shareFile`). Each is guarded
  by the check `'auth0|' + userID === sub`.
  - Read decrypts the file and verifies its signature.
  - Delete removes both artifacts.
  - Share re-signs and re-encrypts the plaintext under the recipient's keys and writes it into
    the recipient's namespace.
- **Permissions and errors.** A permission check refuses requests whose token lacks a required
  permission. The error handler turns errors into `{ message }` replies.

The model is pure and functional.

- The cryptographic engine is a symbolic stand-in (module `Engine`).
  - A ciphertext is `Sealed(keyName, plaintext)` and a signature is
    `Signed(keyName, hash, marshaling, input)`.
  - Only the named key opens or verifies them.
  - Any request can be made to fail through the engine's `outages`.
- The content store is a map from paths to artifacts (module `Store`). The directory tree that
  listing walks is a tree of `ls` answers (module `Listing`).
- The identity provider's three calls are given as their parsed answers (`IdentityProvider`).

| module | file | models |
|---|---|---|
| `Errors` | errors.dfy | error objects, `errorHandler` |
| `Identity` | identity.dfy | key-owner name from `sub`, the ownership guard |
| `Encoding` | encoding.dfy | `Buffer` 'binary' conversions |
| `Paths` | paths.dfy | storage layout |
| `Engine` | engine.dfy | the transit engine stand-in |
| `Vault` | vault.dfy | the engine client: key names, `createKeys`, `deleteKeys`, `listKeys`, `encrypt`, `decrypt`, `sign`, `verify` |
| `Store` | store.dfy | `read`, `write`, `rm` |
| `Listing` | listing.dfy | `ls` and the recursive `listFiles` |
| `Provisioning` | provisioning.dfy | `getAppMetadata`'s decision, `updateAppMetadata`'s result, `checkOrCreateKeys` |
| `Permissions` | permissions.dfy | `checkRequiredPermissions`' claim predicate |
| `Pipeline` | pipeline.dfy | the five middleware handlers |
| `Protocol` | protocol.dfy | properties across handlers |

Behaviours of the code that the model keeps:

- The signature of `<name>` is stored at `/data/<user>/sign/<name>.sha`.
- A failed ownership check is reported as `createError(401)`. The handler does not stop after
  reporting it (see Findings).
- The store client catches write and remove errors and returns them as values
  (`.catch(e => e)`), which no caller inspects.
  - An upload goes on after a failed write.
  - A delete does not report a failed removal.
  - The model gives the store a set of `refused` paths whose writes and removals silently do
    nothing.
- The upload signs before it encrypts. A failure of either happens before any write.
- A share to a recipient without keys fails with the engine's own rejection of the sign request.
- Listed files are named by their absolute path `/data/<ns>/data/...`.

## Model

| member | source | states |
|---|---|---|
| Errors.StatusOrDefault | src/middleware/error.js:22 | an error without a status, or with status 0, is answered with 500; any other status is kept |
| Errors.MessageOrDefault | src/middleware/error.js:23 | an error without a message, or with an empty one, is answered with "Internal Server Error"; any other message is kept |
| Errors.ErrorHandler | src/middleware/error.js:3-24 | the first matching class decides the text: insufficient scope gives "Permission denied", invalid token "Bad credentials", unauthorized "Authentication required", each with the error's status; every other error gets a non-zero status and a non-empty message |
| Errors.KnownErrorReplies | src/middleware/error.js:4-23 | the replies the system's errors end in: 403 Permission denied, 401 Bad credentials, 401 Authentication required, 401 Unauthorized for the ownership check, 500 with the text for an unverifiable signature and for a plain error, 500 Internal Server Error for an empty message |
| Identity.KeyOwnerName | src/middleware/middlewares.js:69 | a `sub` without '\|' is kept; a single-line `sub` loses everything up to and including its last '\|', so the key-owner name holds no '\|' |
| Strings.RemoveFirst | src/middleware/middlewares.js:91 | `String.prototype.replace` with a string pattern: without an occurrence of the pattern the text is unchanged; otherwise exactly the first occurrence is cut out |
| Identity.LiteralNamespace | src/middleware/middlewares.js:91 | the string pattern `'/.*\|/'` is searched as literal text: a `sub` that does not contain it is returned unchanged |
| Identity.OwnerGuard | src/middleware/middlewares.js:142 | the check `'auth0\|' + userID === sub` used at lines 142, 165 and 178; its meaning is carried by `Identity.GuardedUserIsKeyOwner`, `Identity.OnlyProviderBar` and `Protocol.ForeignCallerRefused` |
| Identity.GuardedUserIsKeyOwner | src/middleware/middlewares.js:142 | when the guard admits a plain `userID`, the key owner derived from `sub` is that `userID`: the guard and provisioning agree on whose keys are used |
| Identity.OnlyProviderBar | src/middleware/middlewares.js:142 | in a subject the guard admits, the provider's '\|' at index 5 is the only one |
| Identity.MultiLineSubKeepsLaterBars | src/middleware/middlewares.js:69 | the regex's `.` stops at a line break, so a '\|' on a later line survives |
| Identity.LiteralNamespaceKeepsProviderPrefix | src/middleware/middlewares.js:91 | for `auth0\|<uid>` the literal replace changes nothing while the regex replace yields `<uid>`: the upload namespace and the provisioned key owner differ |
| Encoding.ToBinary | src/utils/vault.js:120 | one one-byte character per byte |
| Encoding.FromBinary | src/middleware/middlewares.js:159 | one or two bytes per character, one per UTF-16 code unit |
| Encoding.BinaryRoundTrip | src/utils/vault.js:120 | bytes turned into a 'binary' string and back are the original bytes |
| Encoding.Latin1RoundTrip | src/utils/vault.js:158 | a string of one-byte characters turned into bytes and back is the original string |
| Encoding.BinaryTruncatesWideCharacters | src/middleware/middlewares.js:159 | a character above U+00FF loses its high byte |
| Paths.PathsInNamespace | src/middleware/middlewares.js:109-110 | both artifacts of an uploaded file lie in the uploader's namespace, the ciphertext below the data root |
| Paths.DataNeverSign | src/middleware/middlewares.js:144-145 | no ciphertext path is a signature path, whatever the file names |
| Paths.DataPathInjective | src/middleware/middlewares.js:109 | distinct file names get distinct ciphertext paths |
| Paths.SignPathInjective | src/middleware/middlewares.js:110 | distinct file names get distinct signature paths |
| Paths.NamespaceIsolation | src/middleware/middlewares.js:144-145 | a path lies in at most one slash-free namespace |
| Paths.DistinctNamespacesDisjoint | src/middleware/middlewares.js:211-212 | artifacts of two distinct slash-free namespaces never share a path |
| Vault.KeyNamesNeverCollide | src/utils/vault.js:21-24 | no user's encryption key name is any user's signing key name |
| Vault.KeyNameInjective | src/utils/vault.js:48 | distinct users get distinct key names of each type |
| Vault.ProvisionedKeysUsable | src/utils/vault.js:21-24 | a provisioned user's keys can encrypt and sign |
| Vault.RunAll | src/utils/vault.js:47-57 | requests run in order; the first rejection is rethrown and nothing after it is sent; requests that change no key leave the engine as it was |
| Vault.RunAllAppend | src/utils/vault.js:47-57 | running two request lists in a row is running their concatenation, stopping at the first failure |
| Vault.RunAllFrame | src/utils/vault.js:47-57 | requests that address only the given key names leave every other key as it was |
| Vault.RunAllStopsAt | src/utils/vault.js:51 | the first failing request ends the run with its error and the engine as the requests before it left it |
| Vault.CreateRequests | src/utils/vault.js:47-57 | per key type, a create request for `<name>-<type>` with that type, exportable and with plaintext backup, then a config request allowing deletion |
| Vault.CreateKeyRequestsInOrder | src/utils/vault.js:47-57 | `createKeys` sends exactly four requests, symmetric key first |
| Vault.CreatePairReady | src/utils/vault.js:48-56 | a create and config pair that is served leaves the key present and deletable: a new key with the requested type, exportable with plaintext backup, an existing key with its own type and settings; no other key changes |
| Vault.CreateKeys | src/utils/vault.js:36-58 | a completed run leaves both of the user's keys ready; no key outside the user's two names changes; a failed run stops at the first failing request with its error |
| Vault.CreateOneSucceeds | src/utils/vault.js:51 | a create request that is not failing succeeds |
| Vault.CreatePrefixSucceeds | src/utils/vault.js:47-57 | a prefix of the creation requests none of which fails completes |
| Vault.CreateKeysFrame | src/utils/vault.js:47-57 | creation changes only the user's two key names |
| Vault.CreateKeysSuccess | src/utils/vault.js:47-57 | creation completes exactly when none of its four requests fails, and then both keys are ready |
| Vault.CreateKeysFailure | src/utils/vault.js:51-56 | a failed creation reports the first failing request's error after applying the requests before it |
| Vault.DeleteRequests | src/utils/vault.js:71-76 | one delete request per key type, for `<name>-<type>` |
| Vault.DeleteKeys | src/utils/vault.js:70-77 | deletion only removes keys; it completes exactly when both of the user's keys exist, allow deletion and their requests are served, and then exactly those two keys are gone; a completed deletion implies both keys existed |
| Vault.DeleteKeysFacts | src/utils/vault.js:70-77 | the same facts about the two delete requests run in order: completion exactly when both keys exist and allow deletion, which implies both existed |
| Vault.DeleteMissingKeysFails | src/utils/vault.js:70-76 | deleting the keys of a user without an encryption key fails at the first request and changes nothing |
| Vault.CreateThenDelete | src/utils/vault.js:36-77 | on a healthy engine, creating a fresh user's keys and deleting them restores the engine |
| Vault.ListKeys | src/utils/vault.js:62-65 | a served listing is the set of all key names; a failure is the engine's rejection |
| Vault.Encrypt | src/utils/vault.js:87-97 | succeeds exactly when the batch is non-empty, the user's encryption key exists and the request is served; one ciphertext per input, in order, each sealed under `<key>-aes256-gcm96` |
| Vault.Decrypt | src/utils/vault.js:111-121 | succeeds exactly when the user's encryption key exists, the request is served and the ciphertext was sealed under that key; the result is the plaintext as a 'binary' string |
| Vault.Sign | src/utils/vault.js:133-146 | succeeds exactly when the batch is non-empty, the user's signing key exists and the request is served; one signature per input, in order, by `<key>-ecdsa-p521` with sha2-512 and asn1 |
| Vault.Verify | src/utils/vault.js:152-166 | answers exactly when the user's signing key exists, the request is served and the signature is one the engine can parse with the fixed marshaling (any other text is rejected with the engine's error); the answer is true exactly when the signature is this user's signing key's signature over the content's bytes with the fixed hash and marshaling |
| Vault.KeyBinding | src/utils/vault.js:90-160 | encrypt and decrypt address the same key, and sign and verify the same key, hash and marshaling |
| Vault.EncryptDecryptRoundTrip | src/utils/vault.js:87-121 | decrypting what encryption produced gives back the input bytes as a 'binary' string |
| Vault.SignVerifyRoundTrip | src/utils/vault.js:133-166 | a signature verifies against the content it was made over |
| Vault.ForeignCiphertextRejected | src/utils/vault.js:111-118 | a ciphertext sealed under another user's key does not decrypt |
| Vault.ForeignSignatureRejected | src/utils/vault.js:152-165 | a signature by another key, or over other bytes, does not verify |
| Store.Read | src/utils/ipfs.js:72-78 | answers the stored artifact; a missing path rejects as not found |
| Store.Write | src/utils/ipfs.js:18-29 | the path now holds the content, or nothing changes when the store refuses it; every other path is unchanged |
| Store.Remove | src/utils/ipfs.js:81-86 | the path and everything below it is gone, or nothing changes when refused; nothing else changes and nothing is added |
| Store.ReadYourWrite | src/utils/ipfs.js:18-29 | a write is read back |
| Store.OverwriteAsWritten | src/utils/ipfs.js:18-28 | the text after a write without truncate starts with the new text, keeps the old file's tail when the old file was longer, and equals the new text exactly when the file was new or not longer |
| Store.ShorterOverwriteKeepsTail | src/utils/ipfs.js:18-28 | writing `vault:v1:XY` over `vault:v1:ABCDEF` leaves `vault:v1:XYCDEF` |
| Store.ReadElsewhere | src/utils/ipfs.js:81-86 | a write or removal does not change a read elsewhere |
| Store.ReadAfterRemove | src/utils/ipfs.js:81-86 | after a removal the path reads as not found |
| Listing.ListFiles | src/middleware/middlewares.js:120-133 | the recursive `listFiles` over the entries `ls` answered, in `ls` order; its meaning is carried by `Listing.ListedIffReached`, `Listing.ListedBelow`, `Listing.ListingCount` and `Listing.ListingConcatenates` |
| Listing.ListEntry | src/middleware/middlewares.js:126-131 | one entry of the loop: a file is listed under `path + '/' + name`, a directory is walked, and a directory whose `ls` fails contributes nothing; its meaning is carried by `Listing.EntryListedIffReached`, `Listing.EntryListedBelow` and `Listing.EntryListingCount` |
| Listing.ListedIffReached | src/middleware/middlewares.js:120-133 | a file is listed exactly when it is reachable through directories whose `ls` succeeded, under the path of that chain |
| Listing.EntryListedIffReached | src/middleware/middlewares.js:126-131 | the same for one entry |
| Listing.ListedBelow | src/middleware/middlewares.js:127-129 | every listed name lies strictly below the starting directory |
| Listing.EntryListedBelow | src/middleware/middlewares.js:127-129 | the same for one entry |
| Listing.ListingCount | src/middleware/middlewares.js:126-131 | one listed entry per reachable file |
| Listing.EntryListingCount | src/middleware/middlewares.js:126-131 | the same for one entry |
| Listing.ListingConcatenates | src/middleware/middlewares.js:126 | the walk follows `ls` order |
| Listing.ListNamespace | src/middleware/middlewares.js:120-135 | a data root that cannot be listed gives nothing; otherwise exactly the reachable files, each below the data root |
| Provisioning.KeysCreatedFlag | src/middleware/middlewares.js:40 | true exactly when `app_metadata.keysCreated` is `true`; an empty profile is false; a profile with keys but a missing or null `app_metadata` throws a TypeError |
| Provisioning.UpdatedFlag | src/middleware/middlewares.js:57 | true exactly when the reply's `app_metadata.keysCreated` is truthy; throws when `app_metadata` is missing or null |
| Provisioning.CheckOrCreateKeys | src/middleware/middlewares.js:67-88 | resolves, always to true, exactly when the flag is set, or creation completes, the listing confirms it and the flag update sticks; a set flag touches nothing; a changed engine after success holds both keys ready; only the user's keys ever change |
| Provisioning.ProvisionedAfterCreate | src/middleware/middlewares.js:75 | completed creation provisions the user unless a key of another type held one of the names |
| Provisioning.KeyListed | src/middleware/middlewares.js:76-78 | `keys.find(value => value.includes(user))` is truthy: some listed name contains the user, and the first match is not the empty name; its meaning is carried by `Provisioning.CheckOrCreateKeys` and `Provisioning.ConfirmationFollowsCreation` |
| Provisioning.ConfirmationFollowsCreation | src/middleware/middlewares.js:76-80 | after completed creation the listing confirms the user, except for an empty user with an empty-named key |
| Provisioning.KeyNamesNeverEmpty | src/utils/vault.js:48 | derived key names are never empty |
| Provisioning.FirstLoginProvisions | src/middleware/middlewares.js:67-88 | a first login against a working engine and provider resolves to true and provisions the user |
| Provisioning.FlagSetSkipsCreation | src/middleware/middlewares.js:71-73 | with the flag set, the call sends nothing to the engine and resolves to true |
| Permissions.GrantedClaim | src/middleware/auth0.js:13 | a missing or falsy `permissions` claim counts as the empty list |
| Permissions.FirstMissing | src/middleware/auth0.js:15-17 | absent exactly when every required permission is included; otherwise the first one that is not |
| Permissions.CheckPermissions | src/middleware/auth0.js:12-23 | nothing required always passes; for an array claim, passes exactly when every required permission is in it, else insufficient scope; for a string claim, passes exactly when every required permission occurs in it as text; a claim that is neither array nor string throws a TypeError once something is required |
| Permissions.MissingClaimGrantsNothing | src/middleware/auth0.js:13-21 | without a claim only a route requiring nothing passes |
| Permissions.MoreGrantsStillPass | src/middleware/auth0.js:15-17 | granting more permissions never refuses a request that passed |
| Permissions.OrderIrrelevant | src/middleware/auth0.js:15-17 | the decision depends only on the set of required permissions |
| Permissions.StringClaimMatchesSubstrings | src/middleware/auth0.js:16 | a string claim is searched as text: "read:files" grants "read" |
| Pipeline.BatchInput | src/middleware/middlewares.js:93-102 | one base64 input per uploaded file, in order, of that file's bytes |
| Pipeline.StoreUploads | src/middleware/middlewares.js:107-111 | for each file name, the last upload with that name has its ciphertext and signature stored, unless the store refuses the path; paths outside the upload are unchanged |
| Pipeline.StoreUploadsFacts | src/middleware/middlewares.js:107-111 | one step of the loop keeps those facts |
| Pipeline.LaterWritesMissFirst | src/middleware/middlewares.js:107-111 | a file with no later namesake is not overwritten by later writes |
| Pipeline.SignEncryptStore | src/middleware/middlewares.js:90-114 | the upload succeeds exactly when signing and encryption are served; a signing failure wins over an encryption failure; on success the last-writer facts and the frame hold |
| Pipeline.Upload | src/middleware/middlewares.js:90-114 | with the key-owner name: an upload of no files fails (the engine rejects the empty batch); a provisioned user on a working engine succeeds for any non-empty upload; every file is then stored genuinely under the user's namespace; paths outside the upload keep their presence and content and the refused paths stay the same; a failure means an empty upload, a missing key or a failing engine |
| Pipeline.UploadAsWritten | src/middleware/middlewares.js:91 | with the literal replace, the upload fails unless a signing key named after the whole `sub` exists; success stores under the whole `sub` |
| Pipeline.ListUserFiles | src/middleware/middlewares.js:116-138 | exactly the files reachable below the key owner's data root, each named below it; nothing when the root cannot be listed |
| Pipeline.ListUserFilesAsWritten | src/middleware/middlewares.js:117 | exactly the files below `/data/<sub>/data` for the whole `sub` |
| Pipeline.Fetch | src/middleware/middlewares.js:144-157 | a missing ciphertext or signature rejects as not found; success means the ciphertext is sealed under the owner's key and the signature is the owner's over the same plaintext |
| Pipeline.ReadDecryptVerify | src/middleware/middlewares.js:140-161 | a caller who is not the owner gets 401; the bytes returned are the ones the owner's ciphertext seals and the owner's signature covers; a fetch failure is passed on |
| Pipeline.DeleteFile | src/middleware/middlewares.js:163-174 | a caller who is not the owner gets 401; for the owner, both artifacts are gone unless refused, only paths below them change, and nothing is added |
| Pipeline.DeleteFileAsWritten | src/middleware/middlewares.js:163-174 | as written, the 401 is reported and both artifacts are removed anyway |
| Pipeline.ShareFile | src/middleware/middlewares.js:176-215 | a caller who is not the owner gets 401; success requires a verified fetch and writes only the recipient's two paths, with the recipient's genuine artifacts |
| Protocol.GenuineReadsBack | src/middleware/middlewares.js:140-161 | the owner reads back the bytes of genuine artifacts |
| Protocol.UploadThenRead | src/middleware/middlewares.js:90-161 | what a provisioned user uploads they read back, for the last file of each name; this relies on the write replacing the file (`Store.Write`), so in the program as written it holds only for a new file name, or when neither the new ciphertext nor the new signature is shorter than the stored one (see Findings) |
| Protocol.ProvisionThenUpload | src/middleware/middlewares.js:67-114 | after first-login provisioning, the user's upload succeeds exactly when it holds at least one file |
| Protocol.AsWrittenUploadUsesUnprovisionedKey | src/middleware/middlewares.js:91 | for a provisioned user without a key named after the whole `sub`, the upload as written fails, and the corrected one succeeds exactly when it holds at least one file |
| Protocol.AsWrittenUploadFailsForAlice | src/middleware/middlewares.js:91 | concrete witness: `auth0\|alice`, provisioned as `alice`, cannot upload `a.txt` |
| Protocol.AsWrittenNamespaceUnreachable | src/middleware/middlewares.js:117 | the as-written namespace is the whole `sub`: its paths are never the ones the guarded routes read, and the guard refuses it as a `userID` |
| Protocol.SubjectIsSlashFree | src/middleware/middlewares.js:142 | a plain user's subject contains no '/' and differs from the user id |
| Protocol.ForeignCallerRefused | src/middleware/middlewares.js:142-178 | with the guard as an early exit, read, delete and share all answer 401 "Unauthorized" to a caller who is not the owner |
| Protocol.ForeignCallerDeletesAsWritten | src/middleware/middlewares.js:165-171 | concrete witness: `auth0\|mallory` deleting alice's `a.txt` is told 401 but the file is gone |
| Protocol.ForeignCallerCannotDelete | src/middleware/middlewares.js:165 | with the early exit, a foreign delete is refused and the owner still reads the file |
| Protocol.ListingMatchesReadRoute | src/middleware/middlewares.js:135-144 | every file the corrected listing reports lies below the data root that the owner's read route addresses, and the owner passes the guard |
| Protocol.TamperedSignatureRejected | src/middleware/middlewares.js:151-157 | a replaced signature never lets the read return content: a parseable signature by another key or over other bytes is answered `valid: false` and the read fails with the 500 signature error; any other text is rejected by the engine and the read fails with that rejection, which the error handler answers with 500 and the engine's message |
| Protocol.ForeignCiphertextNeverRead | src/middleware/middlewares.js:150 | a ciphertext sealed under another user's key is never returned |
| Protocol.ShareThenRecipientRead | src/middleware/middlewares.js:176-215 | after a share the recipient holds genuine artifacts under their own keys and reads the same bytes; this relies on the write replacing the file (`Store.Write`), so in the program as written it holds only when the recipient has no longer ciphertext or signature file of that name (see Findings) |
| Protocol.BeneathStaysInNamespace | src/utils/ipfs.js:81-86 | a recursive removal inside a namespace stays inside it |
| Protocol.DeleteThenRead | src/middleware/middlewares.js:163-174 | after the owner deletes a file, reading it fails |
| Protocol.OwnerDeleteKeepsShare | src/middleware/middlewares.js:163-215 | the owner deleting the original leaves the recipient's shared copy readable |

## Left out

- Transport is not modelled: HTTP, routing, multer parsing, logging, and the asynchronous
  sequencing of awaits. Each handler is a function from its inputs to its result.
  `src/index.js` and `src/routes/*.js` are not part of this model.
- The identity provider is not modelled. `getToken`, and the fetches of `getAppMetadata` and
  `updateAppMetadata`, are given as their parsed answers or rejections.
- Real cryptography is not modelled. The transit engine's AES-GCM and ECDSA are symbolic, and
  base64 is a symbolic wrapper around bytes. What matters here is which key names the client
  sends. The stand-in follows the engine's documented answers where the client depends on them:
  an empty batch is rejected, and a signature it cannot parse is rejected rather than answered.
- Express's behaviour after `next(err)` without `return` is not modelled for read and share.
  Both handlers go on after a failed ownership check (lines 142 and 178), after a failed read,
  decryption or verification (lines 147-151 and 185-189), and after a signature that does not
  verify (lines 153-157 and 191-195). The model stops both at the first error. Only the delete
  fall-through (line 165) is modelled as written, in `Pipeline.DeleteFileAsWritten`.
- Unhandled rejections are modelled as error results. In the upload handler, `vault.sign` and
  `vault.encrypt` (lines 104-105) have no `catch`. In the share handler, the recipient's
  `vault.sign` and `vault.encrypt` (lines 208-209) have none either. A rejection there is an
  unhandled rejection with no reply; `Pipeline.SignEncryptStore` and `Pipeline.ShareFile` return
  it as an error.
- Store.Write: replaces the whole file. The client's `write` (src/utils/ipfs.js:18-28) passes no
  `truncate`, so a shorter text written over a longer file keeps the old file's tail. Both
  artifacts of a file are written this way (middlewares.js lines 109-110 and 211-212), so the
  pipeline's ciphertexts and signatures are then corrupted (see Findings).
  `Store.OverwriteAsWritten` models the write as issued at the level of text.
- Store.ReadYourWrite: holds for the replacing write only. With the write as issued, a shorter
  text over a longer file is not read back as written (`Store.ShorterOverwriteKeepsTail`).
- The content store's `ls` on a file path is modelled as answering that file's own entry.
- The store that read, write and remove act on and the directory tree that listing walks are
  two separate inputs. The model does not derive one from the other.
- `Provisioning.KeyListed` relies on the engine listing key names in lexicographic order. Only
  that explains the one falsy match (an empty key name for an empty user).
- The claim-check library's response to a false return (an invalid-token error) is not
  modelled, because the predicate here never returns false: it throws instead.
- A missing `recipient` in a share request (`ruid` undefined) is not modelled. The recipient is
  a string.
- Identity.LiteralNamespace: when `sub` contains the literal text `/.*|/`, the contract states
  only that the result is that many characters shorter, not which characters were removed.
- Pipeline.UploadAsWritten: states only the failure caused by the missing key and what success
  stores. It does not state the frame, which `Pipeline.Upload` and `Pipeline.SignEncryptStore`
  do.
- Vault.ForeignSignatureRejected: the refusal of a signature by another key, or over other
  bytes, is the symbolic engine's answer. That a real ECDSA signature cannot be forged is
  assumed of the transit engine, not proved.
- Pipeline.Upload: an upload of no files is an error result. The engine rejects the empty
  batch of `vault.sign` (line 104), which has no `catch`, so the program as written sends no
  reply at all.
- Vault.Encrypt: fails when the user's encryption key does not exist. The transit engine
  instead creates a missing key on encrypt when the client's token may create keys; the
  client's token policy is not part of this model. The upload signs first, and signing never
  creates a key, so a user without keys still cannot upload.
- Pipeline.DeleteFileAsWritten: states what is removed and reported, not the frame that
  `Pipeline.DeleteFile` states.
- Engine handling is a stand-in: the key-management requests' answers follow the engine's
  documented behaviour, not code in this repository.

## Findings

| source | as written | input that shows it | evidently intended | confidence | as-written member | corrected member |
|---|---|---|---|---|---|---|
| src/middleware/middlewares.js:91 | `sub.replace('/.*\|/','')` uses a string pattern, so the whole `sub` becomes the key name and namespace of an upload | `sub` = `auth0\|alice`, provisioned as `alice`, uploading `a.txt`: signing asks for `auth0\|alice-ecdsa-p521`, which does not exist, so the upload fails | the regex `/.*\|/` used at line 69, giving `alice` | high (not executed) | Pipeline.UploadAsWritten, Protocol.AsWrittenUploadFailsForAlice | Pipeline.Upload, Protocol.UploadThenRead |
| src/middleware/middlewares.js:117 | the same string pattern makes the listing walk `/data/auth0\|alice/data` | `sub` = `auth0\|alice`: the listed paths are never the ones the read route uses, and `auth0\|alice` as `userID` fails the guard | list below `/data/alice/data` | high (not executed) | Pipeline.ListUserFilesAsWritten, Protocol.AsWrittenNamespaceUnreachable | Pipeline.ListUserFiles, Protocol.ListingMatchesReadRoute |
| src/middleware/middlewares.js:165 | after `next(createError(401))` the handler does not return, so both removals still run | `sub` = `auth0\|mallory` deleting `userID` `alice`, file `a.txt`: the reply is 401 but alice's file is removed | return after reporting 401 | high (not executed) | Pipeline.DeleteFileAsWritten, Protocol.ForeignCallerDeletesAsWritten | Pipeline.DeleteFile, Protocol.ForeignCallerCannotDelete |
| src/utils/ipfs.js:18-28 | `write` is called with `create` and `parents` but without `truncate`, so writing over an existing file overwrites only its start | re-uploading `a.txt` whose new ciphertext `vault:v1:XY` is shorter than the stored `vault:v1:ABCDEF`: the store holds `vault:v1:XYCDEF`, which the engine cannot decrypt, so the read route fails. The signature file is hit even when the same bytes are uploaded again: ECDSA P-521 signatures in asn1 (DER) encoding vary in length, so a new `.sha` text a few characters shorter than the stored one keeps the old tail; the engine then rejects that signature or answers it invalid, and the read route fails | pass `truncate: true` so the file holds exactly the new text | medium (not executed) | Store.OverwriteAsWritten, Store.ShorterOverwriteKeepsTail | Store.Write, Store.ReadYourWrite |

=== FILE: encoding.dfy ===
/** Byte/string conversions of Node's `Buffer` that the pipeline relies on. Base64 text is
    represented by the bytes it encodes (its alphabet and padding are not modelled); the
    'binary' (latin1) conversion between bytes and JavaScript strings is modelled exactly. */
module Encoding {

  newtype byte = x: int | 0 <= x < 256

  /** Base64 text: `Base64Of(b)` is `Buffer.from(b).toString('base64')`, and decoding it
      (`Buffer.from(t, 'base64')`) gives back `bytes`. */
  datatype Base64 = Base64Of(bytes: seq<byte>)

  /** A JavaScript string whose characters all fit in one byte. */
  predicate IsLatin1(s: string) {
    forall i :: 0 <= i < |s| ==> s[i] as int < 256
  }

  /** `buffer.toString('binary')`: each byte becomes the character with that code. */
  function ToBinary(b: seq<byte>): (s: string)
    ensures |s| == |b| && IsLatin1(s)
  {
    seq(|b|, i requires 0 <= i < |b| => (b[i] as int) as char)
  }

  /** The UTF-16 code units JavaScript stores for one character. */
  function CodeUnits(c: char): (units: seq<int>)
    ensures c as int < 0x1_0000 ==> units == [c as int]
    ensures 1 <= |units| <= 2
  {
    var v := c as int;
    if v < 0x1_0000 then [v]
    else [0xD800 + (v - 0x1_0000) / 0x400, 0xDC00 + (v - 0x1_0000) % 0x400]
  }

  /** Each code unit truncated to its low byte. */
  function LowBytes(units: seq<int>): (b: seq<byte>)
    ensures |b| == |units|
  {
    seq(|units|, i requires 0 <= i < |units| => (units[i] % 256) as byte)
  }

  /** `Buffer.from(s, 'binary')`: every UTF-16 code unit of `s` keeps only its low byte. */
  function FromBinary(s: string): (b: seq<byte>)
    ensures |s| <= |b| <= 2 * |s|
  {
    if s == [] then [] else LowBytes(CodeUnits(s[0])) + FromBinary(s[1..])
  }

  /** Bytes turned into a 'binary' string and back are the same bytes: this is what lets a
      decrypted file be re-encoded exactly as it was originally signed. */
  lemma {:induction false} BinaryRoundTrip(b: seq<byte>)
    ensures FromBinary(ToBinary(b)) == b
  {
    if b != [] {
      var s := ToBinary(b);
      assert s[1..] == ToBinary(b[1..]);
      assert LowBytes(CodeUnits(s[0])) == [b[0]];
      BinaryRoundTrip(b[1..]);
      assert b == [b[0]] + b[1..];
    }
  }

  /** The other direction: a string of one-byte characters survives the trip through bytes. */
  lemma {:induction false} Latin1RoundTrip(s: string)
    requires IsLatin1(s)
    ensures ToBinary(FromBinary(s)) == s
  {
    if s != [] {
      Latin1RoundTrip(s[1..]);
      var b := FromBinary(s);
      assert LowBytes(CodeUnits(s[0])) == [(s[0] as int) as byte];
      assert b == [(s[0] as int) as byte] + FromBinary(s[1..]);
      assert ToBinary(b) == [s[0]] + ToBinary(FromBinary(s[1..]));
      assert s == [s[0]] + s[1..];
    }
  }

  /** A character outside latin1 does not survive: 'ā' (U+0101) comes back as U+0001. */
  lemma BinaryTruncatesWideCharacters()
    ensures FromBinary("\U{0101}") == [1]
  {
    assert CodeUnits('\U{0101}') == [0x101];
  }
}

=== FILE: engine.dfy ===
/** A stand-in for the external cryptographic engine (a transit secrets engine reached over a
    request/response API). Its cryptography is symbolic: a ciphertext records the key that sealed
    it and the plaintext it hides, a signature records the key, hash, encoding and signed input.
    What the rest of the model relies on is only what such an engine promises: a ciphertext opens
    only under the key that made it, and a signature verifies only for the key and input it was
    made for. Any request can be made to fail through `outages`. */
module Engine {
  import opened Wrappers
  import opened Encoding
  import opened Errors

  /** The stored configuration of one named key. */
  datatype KeyConfig = KeyConfig(keyType: string, exportable: bool, allowPlaintextBackup: bool,
                                 deletionAllowed: bool)

  /** An artifact the engine hands out and the store keeps: a ciphertext, a signature, or any
      other text (a tampered or foreign value). */
  datatype Blob =
    | Sealed(keyName: string, plaintext: Base64)
    | Signed(keyName: string, hash: string, marshaling: string, input: Base64)
    | Opaque(text: string)

  /** The requests the client sends. */
  datatype Request =
    | CreateKey(name: string, keyType: string, allowPlaintextBackup: bool, exportable: bool)
    | ConfigureKey(name: string, deletionAllowed: bool)
    | ListKeyNames
    | DeleteKey(name: string)
    | EncryptBatch(name: string, plaintexts: seq<Base64>)
    | DecryptOne(name: string, ciphertext: Blob)
    | SignBatch(name: string, hash: string, inputs: seq<Base64>, marshaling: string)
    | VerifyOne(name: string, hash: string, input: Base64, signature: Blob, marshaling: string)

  /** The payload of a successful reply. */
  datatype EngineReply =
    | Done
    | KeyNames(names: set<string>)
    | BatchResults(results: seq<Blob>)
    | Plaintext(data: Base64)
    | Validity(valid: bool)

  /** The engine's keys, and the requests that currently fail together with the error each
      is rejected with (a network failure, a permission error, a server fault). */
  datatype Engine = Engine(keys: map<string, KeyConfig>, outages: map<Request, JsError>)

  /** A successful reply together with the engine state after the request. */
  datatype Answer = Answer(engine: Engine, reply: EngineReply)

  /** Key types usable for encryption. */
  predicate Encrypting(keyType: string) {
    keyType in {"aes128-gcm96", "aes256-gcm96", "chacha20-poly1305"}
  }

  /** Key types usable for signing. */
  predicate Signing(keyType: string) {
    keyType in {"ecdsa-p256", "ecdsa-p384", "ecdsa-p521", "ed25519", "rsa-2048", "rsa-3072", "rsa-4096"}
  }

  /** The named key exists and can do the job. */
  predicate HasEncryptionKey(e: Engine, name: string) {
    name in e.keys && Encrypting(e.keys[name].keyType)
  }

  predicate HasSigningKey(e: Engine, name: string) {
    name in e.keys && Signing(e.keys[name].keyType)
  }

  /** The requests that change the set of keys or their configuration. */
  predicate Mutating(r: Request) {
    r.CreateKey? || r.ConfigureKey? || r.DeleteKey?
  }

  /** The engine's rejection of a request it cannot serve. */
  function Rejected(reason: string): JsError {
    JsError({EngineError}, None, Some(reason))
  }

  /** The rejection of a batch request whose batch is empty. */
  const EmptyBatch := "missing batch input to process"

  /** The rejection of a verify request whose signature is not a signature the engine could have
      made with the requested encoding (no `vault:vN:` prefix, not base64, not parseable). */
  function MalformedSignature(): JsError {
    Rejected("invalid signature")
  }

  /** A signature the engine can parse for the given encoding; only such a signature is answered
      with a verdict, valid or not. */
  predicate WellFormedSignature(sig: Blob, marshaling: string) {
    sig.Signed? && sig.marshaling == marshaling
  }

  /** Serves one request. */
  function Handle(e: Engine, r: Request): (res: Result<Answer, JsError>)
    ensures r in e.outages ==> res == Err(e.outages[r])
    ensures res.Ok? ==> res.value.engine.outages == e.outages
    ensures res.Ok? && !Mutating(r) ==> res.value.engine == e
    ensures res.Ok? && Mutating(r) ==>
              forall k :: k != r.name ==>
                (&& (k in res.value.engine.keys <==> k in e.keys)
                 && (k in res.value.engine.keys ==> res.value.engine.keys[k] == e.keys[k]))
    ensures res.Ok? && r.EncryptBatch? ==>
              res.value.reply.BatchResults? && |res.value.reply.results| == |r.plaintexts|
    ensures res.Ok? && r.SignBatch? ==>
              res.value.reply.BatchResults? && |res.value.reply.results| == |r.inputs|
    ensures res.Ok? && r.DecryptOne? ==> res.value.reply.Plaintext?
    ensures res.Ok? && r.VerifyOne? ==> res.value.reply.Validity? && WellFormedSignature(r.signature, r.marshaling)
    ensures res.Ok? && (r.EncryptBatch? || r.SignBatch?) ==> |res.value.reply.results| > 0
    ensures res.Ok? && r.ListKeyNames? ==> res.value.reply == KeyNames(e.keys.Keys)
    ensures res.Ok? && r.DeleteKey? ==>
              r.name in e.keys && e.keys[r.name].deletionAllowed && r.name !in res.value.engine.keys
  {
    if r in e.outages then Err(e.outages[r])
    else match r
      case CreateKey(n, t, backup, exportable) =>
        if !(Encrypting(t) || Signing(t)) then Err(Rejected("unknown key type " + t))
        else if n in e.keys then Ok(Answer(e, Done))
        else Ok(Answer(e.(keys := e.keys[n := KeyConfig(t, exportable, backup, false)]), Done))
      case ConfigureKey(n, d) =>
        if n !in e.keys then Err(Rejected("no existing key named " + n + " could be found"))
        else Ok(Answer(e.(keys := e.keys[n := e.keys[n].(deletionAllowed := d)]), Done))
      case ListKeyNames =>
        if |e.keys| == 0 then Err(Rejected("no keys"))
        else Ok(Answer(e, KeyNames(e.keys.Keys)))
      case DeleteKey(n) =>
        if n !in e.keys then Err(Rejected("could not delete key; not found"))
        else if !e.keys[n].deletionAllowed then Err(Rejected("deletion is not allowed for this key"))
        else Ok(Answer(e.(keys := e.keys - {n}), Done))
      case EncryptBatch(n, ps) =>
        if ps == [] then Err(Rejected(EmptyBatch))
        else if !HasEncryptionKey(e, n) then Err(Rejected("encryption key not found"))
        else Ok(Answer(e, BatchResults(seq(|ps|, i requires 0 <= i < |ps| => Sealed(n, ps[i])))))
      case DecryptOne(n, c) =>
        if !HasEncryptionKey(e, n) then Err(Rejected("encryption key not found"))
        else if c.Sealed? && c.keyName == n then Ok(Answer(e, Plaintext(c.plaintext)))
        else Err(Rejected("cipher: message authentication failed"))
      case SignBatch(n, h, ins, m) =>
        if ins == [] then Err(Rejected(EmptyBatch))
        else if !HasSigningKey(e, n) then Err(Rejected("signing key not found"))
        else Ok(Answer(e, BatchResults(seq(|ins|, i requires 0 <= i < |ins| => Signed(n, h, m, ins[i])))))
      case VerifyOne(n, h, input, sig, m) =>
        if !HasSigningKey(e, n) then Err(Rejected("signing key not found"))
        else if !WellFormedSignature(sig, m) then Err(MalformedSignature())
        else Ok(Answer(e, Validity(sig == Signed(n, h, m, input))))
  }
}

=== FILE: errors.dfy ===
/** JavaScript error objects as the system raises them, and the Express error handler that turns
    one into exactly one HTTP reply (src/middleware/error.js). */
module Errors {
  import opened Wrappers

  /** The classes an error object can be an `instanceof`. The three token-library classes are
      distinguished because the handler tests them; the others only label where an error came from. */
  datatype ErrorClass =
    | InsufficientScopeError
    | InvalidTokenError
    | UnauthorizedError
    | HttpError
    | TypeError
    | EngineError
    | StoreError
    | PlainError

  /** An error object: every class it is an instance of, its `status` and `message` properties
      (`None` when the property is `undefined`). */
  datatype JsError = JsError(classes: set<ErrorClass>, status: Option<int>, message: Option<string>)

  /** The reply the handler sends: `response.status(status).json({ message })`. */
  datatype Reply = Reply(status: Option<int>, message: string)

  /** `createError(401)`. */
  function Unauthorized401(): JsError {
    JsError({HttpError}, Some(401), Some("Unauthorized"))
  }

  /** The status-500 error raised when a detached signature does not verify. */
  function SignatureNotVerified(filePath: string): JsError {
    JsError({PlainError}, Some(500),
      Some("Digital Signature for the file " + filePath + " could not be verified."))
  }

  /** A plain `new Error(message)`: no status. */
  function Plain(message: string): JsError {
    JsError({PlainError}, None, Some(message))
  }

  /** The token library's `InsufficientScopeError`, a subclass of its `UnauthorizedError`. */
  function InsufficientScope(): JsError {
    JsError({InsufficientScopeError, UnauthorizedError}, Some(403), Some("Insufficient Scope"))
  }

  /** The token library's `InvalidTokenError`, a subclass of its `UnauthorizedError`. */
  function InvalidToken(): JsError {
    JsError({InvalidTokenError, UnauthorizedError}, Some(401), Some("Invalid Token"))
  }

  /** The token library's `UnauthorizedError`, raised when a request carries no token. */
  function MissingToken(): JsError {
    JsError({UnauthorizedError}, Some(401), Some("Unauthorized"))
  }

  /** A `TypeError` thrown by the runtime (a property read on `undefined`, a missing method). */
  function RuntimeTypeError(message: string): JsError {
    JsError({TypeError}, None, Some(message))
  }

  /** `error.status || 500`: an undefined or zero status becomes 500. */
  function StatusOrDefault(status: Option<int>): (r: int)
    ensures status.None? ==> r == 500
    ensures status.Some? && status.value == 0 ==> r == 500
    ensures status.Some? && status.value != 0 ==> r == status.value
  {
    match status
    case Some(s) => if s != 0 then s else 500
    case None => 500
  }

  /** `error.message || "Internal Server Error"`: an undefined or empty message is replaced. */
  function MessageOrDefault(message: Option<string>): (r: string)
    ensures message.None? ==> r == "Internal Server Error"
    ensures message.Some? && message.value == "" ==> r == "Internal Server Error"
    ensures message.Some? && message.value != "" ==> r == message.value
  {
    match message
    case Some(m) => if m != "" then m else "Internal Server Error"
    case None => "Internal Server Error"
  }

  /** The error handler: three `instanceof` tests in order, the first that matches decides the
      message and keeps the error's own status; any other error gets a defaulted status and message. */
  function ErrorHandler(error: JsError): (r: Reply)
    ensures InsufficientScopeError in error.classes ==>
              r == Reply(error.status, "Permission denied")
    ensures InsufficientScopeError !in error.classes && InvalidTokenError in error.classes ==>
              r == Reply(error.status, "Bad credentials")
    ensures InsufficientScopeError !in error.classes && InvalidTokenError !in error.classes
            && UnauthorizedError in error.classes ==>
              r == Reply(error.status, "Authentication required")
    ensures !IsTokenError(error) ==> r.status.Some? && r.status.value != 0 && r.message != ""
    ensures !IsTokenError(error) ==>
              r == Reply(Some(StatusOrDefault(error.status)), MessageOrDefault(error.message))
  {
    if InsufficientScopeError in error.classes then
      Reply(error.status, "Permission denied")
    else if InvalidTokenError in error.classes then
      Reply(error.status, "Bad credentials")
    else if UnauthorizedError in error.classes then
      Reply(error.status, "Authentication required")
    else
      Reply(Some(StatusOrDefault(error.status)), MessageOrDefault(error.message))
  }

  /** The error is an instance of one of the three token-library classes the handler tests. */
  predicate IsTokenError(error: JsError) {
    InsufficientScopeError in error.classes || InvalidTokenError in error.classes
    || UnauthorizedError in error.classes
  }

  /** The replies the errors this system raises end in. The token library's classes keep their
      status (a scope error is a 403 even though it is also an `UnauthorizedError`); `createError(401)`
      is not one of them and goes through the default branch with its own status and message. */
  lemma KnownErrorReplies(filePath: string, message: string)
    requires message != ""
    ensures ErrorHandler(InsufficientScope()) == Reply(Some(403), "Permission denied")
    ensures ErrorHandler(InvalidToken()) == Reply(Some(401), "Bad credentials")
    ensures ErrorHandler(MissingToken()) == Reply(Some(401), "Authentication required")
    ensures ErrorHandler(Unauthorized401()) == Reply(Some(401), "Unauthorized")
    ensures ErrorHandler(SignatureNotVerified(filePath)) ==
              Reply(Some(500), "Digital Signature for the file " + filePath + " could not be verified.")
    ensures ErrorHandler(Plain(message)) == Reply(Some(500), message)
    ensures ErrorHandler(Plain("")) == Reply(Some(500), "Internal Server Error")
  {
  }
}

=== FILE: identity.dfy ===
/** From a verified subject identifier (`sub`, e.g. "auth0|634533525615e6a1bdb52285") to the
    names under which a user's keys and files live, and the ownership guard on a route's `userID`
    (src/middleware/middlewares.js). */
module Identity {
  import opened Wrappers
  import opened Strings

  /** The characters JavaScript's regular-expression `.` does not match. */
  predicate IsLineTerminator(c: char) {
    c == '\n' || c == '\r' || c == '\U{2028}' || c == '\U{2029}'
  }

  /** The string holds no line terminator, so `.` matches every one of its characters. */
  predicate SingleLine(s: string) {
    forall k :: 0 <= k < |s| ==> !IsLineTerminator(s[k])
  }

  /** The index of the first '|' in `s`, if any. */
  function FirstBar(s: string, from: nat): (r: Option<nat>)
    decreases |s| - from
    ensures r.Some? ==> from <= r.value < |s| && s[r.value] == '|'
    ensures r.Some? ==> forall k :: from <= k < r.value ==> s[k] != '|'
    ensures r.None? ==> forall k :: from <= k < |s| ==> s[k] != '|'
  {
    if from >= |s| then None
    else if s[from] == '|' then Some(from)
    else FirstBar(s, from + 1)
  }

  /** The start of the line holding index `j`. */
  function LineStart(s: string, j: nat): (i: nat)
    requires j <= |s|
    ensures i <= j
    ensures i == 0 || IsLineTerminator(s[i - 1])
    ensures forall k :: i <= k < j ==> !IsLineTerminator(s[k])
  {
    if j == 0 || IsLineTerminator(s[j - 1]) then j else LineStart(s, j - 1)
  }

  /** The end (exclusive) of the line holding index `j`. */
  function LineEnd(s: string, j: nat): (e: nat)
    requires j <= |s|
    decreases |s| - j
    ensures j <= e <= |s|
    ensures e == |s| || IsLineTerminator(s[e])
    ensures forall k :: j <= k < e ==> !IsLineTerminator(s[k])
  {
    if j == |s| || IsLineTerminator(s[j]) then j else LineEnd(s, j + 1)
  }

  /** The last '|' in `s[lo..hi]`, given that `s[lo]` is one. */
  function LastBar(s: string, lo: nat, hi: nat): (m: nat)
    requires lo < hi <= |s| && s[lo] == '|'
    decreases hi
    ensures lo <= m < hi && s[m] == '|'
    ensures forall k :: m < k < hi ==> s[k] != '|'
  {
    if s[hi - 1] == '|' then hi - 1 else LastBar(s, lo, hi - 1)
  }

  /** `sub.replace(/.*\|/, '')`: the leftmost match of `.*\|` starts at the beginning of the line
      holding the first '|' and, greedily, ends at the last '|' of that line; it is removed. A
      single-line `sub` loses everything up to and including its last '|'. */
  function KeyOwnerName(sub: string): (r: string)
    ensures '|' !in sub ==> r == sub
    ensures SingleLine(sub) ==> '|' !in r
    ensures SingleLine(sub) && '|' in sub ==>
              |r| < |sub| && sub[|sub| - |r| - 1] == '|' && r == sub[|sub| - |r|..]
  {
    match FirstBar(sub, 0)
    case None => sub
    case Some(j) =>
      var i := LineStart(sub, j);
      var m := LastBar(sub, j, LineEnd(sub, j));
      assert SingleLine(sub) ==> i == 0 && LineEnd(sub, j) == |sub|;
      assert SingleLine(sub) ==> sub[..i] + sub[m + 1..] == sub[m + 1..];
      sub[..i] + sub[m + 1..]
  }

  /** The text the upload and listing handlers pass to `replace` as a STRING pattern: a string
      literal, so it is matched literally, not as a regular expression. */
  const LiteralPattern: string := "/.*|/"

  /** `sub.replace('/.*\|/', '')` exactly as the upload and listing handlers write it. */
  function LiteralNamespace(sub: string): (r: string)
    ensures !Contains(sub, LiteralPattern) ==> r == sub
    ensures Contains(sub, LiteralPattern) ==> |r| == |sub| - |LiteralPattern|
  {
    var r := RemoveFirst(sub, LiteralPattern);
    assert Contains(sub, LiteralPattern) ==> |r| == |sub| - |LiteralPattern| by {
      if Contains(sub, LiteralPattern) {
        var i := IndexOf(sub, LiteralPattern, 0);
        assert i.Some?;
        assert FirstAt(LiteralPattern, sub, i.value);
      }
    }
    r
  }

  /** The identity-provider prefix the ownership guard prepends to a route's `userID`. */
  const ProviderPrefix: string := "auth0|"

  /** `'auth0|' + uid === sub`: the guard read, delete and share place before any store access. */
  predicate OwnerGuard(sub: string, uid: string) {
    ProviderPrefix + uid == sub
  }

  /** When the guard admits `uid`, and `uid` is a plain single-line id without '|', the key owner
      name derived from `sub` is `uid` itself: guarded routes and provisioned keys agree. */
  lemma GuardedUserIsKeyOwner(sub: string, uid: string)
    requires OwnerGuard(sub, uid)
    requires '|' !in uid && SingleLine(uid)
    ensures KeyOwnerName(sub) == uid
  {
    assert sub[5] == '|';
    assert '|' in sub;
    assert SingleLine(sub) by {
      forall k | 0 <= k < |sub| ensures !IsLineTerminator(sub[k]) {
        if k >= 6 { assert sub[k] == uid[k - 6]; }
      }
    }
    OnlyProviderBar(sub, uid);
    var r := KeyOwnerName(sub);
    assert sub[|sub| - |r| - 1] == '|';
  }

  /** In `'auth0|' + uid` with a bar-free `uid`, the provider's '|' is the only one. */
  lemma OnlyProviderBar(sub: string, uid: string)
    requires OwnerGuard(sub, uid) && '|' !in uid
    ensures forall k :: 0 <= k < |sub| && sub[k] == '|' ==> k == 5
  {
    forall k | 0 <= k < |sub| && sub[k] == '|' ensures k == 5 {
      if k < 6 {
        assert sub[k] == ProviderPrefix[k];
      }
    }
  }

  /** A `sub` with a '|' in a second line keeps it: the regex stops at the first line. */
  lemma MultiLineSubKeepsLaterBars()
    ensures KeyOwnerName("a|b\nc|d") == "b\nc|d"
  {
    var s := "a|b\nc|d";
    assert FirstBar(s, 0) == Some(1);
    assert LineStart(s, 1) == 0;
    assert LineEnd(s, 1) == 3;
    assert LastBar(s, 1, 3) == 1;
  }

  /** For an ordinary provider id the two derivations differ: the literal replace changes nothing. */
  lemma LiteralNamespaceKeepsProviderPrefix(uid: string)
    requires '|' !in uid && SingleLine(uid)
    ensures LiteralNamespace(ProviderPrefix + uid) == ProviderPrefix + uid
    ensures KeyOwnerName(ProviderPrefix + uid) == uid
  {
    var sub := ProviderPrefix + uid;
    GuardedUserIsKeyOwner(sub, uid);
    OnlyProviderBar(sub, uid);
    forall i: nat | i + |LiteralPattern| <= |sub| ensures !OccursAt(LiteralPattern, sub, i) {
      if i == 2 {
        assert sub[2] != LiteralPattern[0];
      } else {
        assert sub[i + 3] != LiteralPattern[3];
      }
    }
  }
}

=== FILE: json.dfy ===
/** The JSON values that cross the boundary to the identity provider, with JavaScript truthiness. */
module Json {

  datatype JsonValue =
    | JNull
    | JBool(b: bool)
    | JNumber(n: int)
    | JString(s: string)
    | JArray(items: seq<JsonValue>)
    | JObject(fields: map<string, JsonValue>)

  /** JavaScript truthiness of a parsed JSON value: `null`, `false`, `0` and `""` are falsy. */
  predicate Truthy(v: JsonValue) {
    match v
    case JNull => false
    case JBool(b) => b
    case JNumber(n) => n != 0
    case JString(s) => s != ""
    case JArray(_) => true
    case JObject(_) => true
  }

  /** Truthiness of a property read `obj[name]` where a missing property reads as `undefined`. */
  predicate TruthyField(obj: map<string, JsonValue>, name: string) {
    name in obj && Truthy(obj[name])
  }
}

=== FILE: listing.dfy ===
/** The listing of a user's files (`listUserFiles` and its inner `listFiles`,
    src/middleware/middlewares.js): a depth-first walk of the file system's directory tree below
    the user's data root that collects every non-directory entry under its full path. */
module Listing {
  import opened Wrappers
  import opened Strings
  import opened Paths

  /** An entry `ls` reports. A directory carries what `ls` of its own path answers. */
  datatype Node =
    | File(name: string, size: nat, cid: string)
    | Directory(name: string, cid: string, ls: LsAnswer)

  /** The answer of one `ls` call: the entries in `ls` order, or a rejection. */
  datatype LsAnswer = Rejected | Entries(entries: seq<Node>)

  /** A listed file: the `ls` entry with its name replaced by the full path. */
  datatype FileInfo = FileInfo(name: string, size: nat, cid: string)

  /** What one entry of `ls(dir)` contributes: a file under its full path, or the walk of a
      directory (nothing when its own `ls` rejects, which is caught and logged). */
  function ListEntry(dir: string, e: Node): seq<FileInfo>
    decreases e
  {
    match e
    case File(name, size, cid) => [FileInfo(dir + "/" + name, size, cid)]
    case Directory(name, _, ls) => if ls.Entries? then ListFiles(dir + "/" + name, ls.entries) else []
  }

  /** `listFiles(dir)` given the entries `ls(dir)` answered: entry by entry, in `ls` order. */
  function ListFiles(dir: string, entries: seq<Node>): seq<FileInfo>
    decreases entries
  {
    if entries == [] then [] else ListEntry(dir, entries[0]) + ListFiles(dir, entries[1..])
  }

  /** The reference description of the listing: `f` is a file reached from `dir` through a chain
      of directories whose own `ls` succeeded, and is named by the path of that chain. */
  ghost predicate Reaches(dir: string, entries: seq<Node>, f: FileInfo)
    decreases entries
  {
    exists i :: 0 <= i < |entries| && ReachesVia(dir, entries[i], f)
  }

  /** `f` is the entry `e` of `ls(dir)` itself, or is reached inside it. */
  ghost predicate ReachesVia(dir: string, e: Node, f: FileInfo)
    decreases e
  {
    match e
    case File(name, size, cid) => f == FileInfo(dir + "/" + name, size, cid)
    case Directory(name, _, ls) => ls.Entries? && Reaches(dir + "/" + name, ls.entries, f)
  }

  /** The number of files reachable through successful `ls` calls. */
  function FileCount(entries: seq<Node>): nat
    decreases entries
  {
    if entries == [] then 0 else EntryFileCount(entries[0]) + FileCount(entries[1..])
  }

  function EntryFileCount(e: Node): nat
    decreases e
  {
    match e
    case File(_, _, _) => 1
    case Directory(_, _, ls) => if ls.Entries? then FileCount(ls.entries) else 0
  }

  /** The listing holds exactly the files the tree reaches, in both directions. */
  lemma {:induction false} ListedIffReached(dir: string, entries: seq<Node>, f: FileInfo)
    decreases entries
    ensures f in ListFiles(dir, entries) <==> Reaches(dir, entries, f)
  {
    if entries != [] {
      var rest := entries[1..];
      ListedIffReached(dir, rest, f);
      EntryListedIffReached(dir, entries[0], f);
      if Reaches(dir, entries, f) {
        var i :| 0 <= i < |entries| && ReachesVia(dir, entries[i], f);
        if i > 0 {
          assert rest[i - 1] == entries[i];
        }
      }
      if f in ListFiles(dir, rest) {
        var j :| 0 <= j < |rest| && ReachesVia(dir, rest[j], f);
        assert entries[j + 1] == rest[j];
      }
    }
  }

  lemma {:induction false} EntryListedIffReached(dir: string, e: Node, f: FileInfo)
    decreases e
    ensures f in ListEntry(dir, e) <==> ReachesVia(dir, e, f)
  {
    if e.Directory? && e.ls.Entries? {
      ListedIffReached(dir + "/" + e.name, e.ls.entries, f);
    }
  }

  /** Every listed file is named by a path strictly below `dir`. */
  lemma {:induction false} ListedBelow(dir: string, entries: seq<Node>)
    decreases entries
    ensures forall f :: f in ListFiles(dir, entries) ==> IsPrefix(dir + "/", f.name)
  {
    if entries != [] {
      ListedBelow(dir, entries[1..]);
      EntryListedBelow(dir, entries[0]);
    }
  }

  lemma {:induction false} EntryListedBelow(dir: string, e: Node)
    decreases e
    ensures forall f :: f in ListEntry(dir, e) ==> IsPrefix(dir + "/", f.name)
  {
    if e.Directory? && e.ls.Entries? {
      var sub := dir + "/" + e.name;
      ListedBelow(sub, e.ls.entries);
      forall f | f in ListFiles(sub, e.ls.entries) ensures IsPrefix(dir + "/", f.name) {
        assert f.name[..|sub + "/"|] == sub + "/";
        assert (sub + "/")[..|dir + "/"|] == dir + "/";
      }
    }
  }

  /** The listing has one entry per reachable file. */
  lemma {:induction false} ListingCount(dir: string, entries: seq<Node>)
    decreases entries
    ensures |ListFiles(dir, entries)| == FileCount(entries)
  {
    if entries != [] {
      ListingCount(dir, entries[1..]);
      EntryListingCount(dir, entries[0]);
    }
  }

  lemma {:induction false} EntryListingCount(dir: string, e: Node)
    decreases e
    ensures |ListEntry(dir, e)| == EntryFileCount(e)
  {
    if e.Directory? && e.ls.Entries? {
      ListingCount(dir + "/" + e.name, e.ls.entries);
    }
  }

  /** The walk follows `ls` order: listing two runs of entries lists the first, then the second. */
  lemma {:induction false} ListingConcatenates(dir: string, a: seq<Node>, b: seq<Node>)
    decreases a
    ensures ListFiles(dir, a + b) == ListFiles(dir, a) + ListFiles(dir, b)
  {
    if a == [] {
      assert a + b == b;
    } else {
      assert (a + b)[0] == a[0];
      assert (a + b)[1..] == a[1..] + b;
      ListingConcatenates(dir, a[1..], b);
    }
  }

  // ------------------------------------------------------------------
  // Resolving the data root
  // ------------------------------------------------------------------

  /** The non-empty components of a '/'-separated path, as the file system resolves it. */
  function Components(path: string): (parts: seq<string>)
    decreases |path|
    ensures forall i :: 0 <= i < |parts| ==> parts[i] != [] && '/' !in parts[i]
  {
    if path == [] then []
    else if path[0] == '/' then Components(path[1..])
    else
      var n := SegmentLength(path, 0);
      [path[..n]] + Components(path[n..])
  }

  /** The length of the leading run of non-'/' characters of `path` from `from` on. */
  function SegmentLength(path: string, from: nat): (n: nat)
    requires from <= |path|
    decreases |path| - from
    ensures from <= n <= |path|
    ensures forall k :: from <= k < n ==> path[k] != '/'
    ensures n < |path| ==> path[n] == '/'
  {
    if from == |path| || path[from] == '/' then from else SegmentLength(path, from + 1)
  }

  /** The first entry named `name`, if any. */
  function Find(entries: seq<Node>, name: string): (r: Option<Node>)
    ensures r.Some? ==> r.value in entries && r.value.name == name
    ensures r.None? ==> forall i :: 0 <= i < |entries| ==> entries[i].name != name
  {
    if entries == [] then None
    else if entries[0].name == name then Some(entries[0])
    else Find(entries[1..], name)
  }

  /** What `ls` answers for the path with the given components, walking down from the entries of
      the root: a directory's entries, a file's own entry, or `None` when `ls` rejects. */
  function Ls(root: seq<Node>, parts: seq<string>): (r: Option<seq<Node>>)
    decreases parts
  {
    if parts == [] then Some(root)
    else match Find(root, parts[0])
      case None => None
      case Some(File(name, size, cid)) => if |parts| == 1 then Some([File(name, size, cid)]) else None
      case Some(Directory(_, _, ls)) =>
        if ls.Rejected? then None else Ls(ls.entries, parts[1..])
  }

  /** What `ls` answers for the data root of namespace `ns`. */
  function RootEntries(root: seq<Node>, ns: string): Option<seq<Node>> {
    Ls(root, Components(DataRoot(ns)))
  }

  /** `listFiles('/data/<ns>/data')`: nothing when the data root cannot be listed. */
  function ListNamespace(root: seq<Node>, ns: string): (files: seq<FileInfo>)
    ensures RootEntries(root, ns).None? ==> files == []
    ensures forall f :: f in files <==> RootEntries(root, ns).Some? && Reaches(DataRoot(ns), RootEntries(root, ns).value, f)
    ensures forall i :: 0 <= i < |files| ==> IsPrefix(DataRoot(ns) + "/", files[i].name)
  {
    match RootEntries(root, ns)
    case None => []
    case Some(entries) =>
      ListedBelow(DataRoot(ns), entries);
      assert forall i :: 0 <= i < |ListFiles(DataRoot(ns), entries)| ==>
        ListFiles(DataRoot(ns), entries)[i] in ListFiles(DataRoot(ns), entries);
      forall f ensures f in ListFiles(DataRoot(ns), entries) <==> Reaches(DataRoot(ns), entries, f) {
        ListedIffReached(DataRoot(ns), entries, f);
      }
      ListFiles(DataRoot(ns), entries)
  }
}

=== FILE: paths.dfy ===
/** The storage layout: a user's ciphertexts live under `/data/<ns>/data/` and their detached
    signatures under `/data/<ns>/sign/`, with a `.sha` suffix (src/middleware/middlewares.js). */
module Paths {
  import opened Strings

  /** The directory holding the ciphertexts of namespace `ns`. */
  function DataRoot(ns: string): string {
    "/data/" + ns + "/data"
  }

  /** Where the ciphertext of file `name` of namespace `ns` is written. */
  function DataPath(ns: string, name: string): string {
    "/data/" + ns + "/data/" + name
  }

  /** Where the detached signature of file `name` of namespace `ns` is written. */
  function SignPath(ns: string, name: string): string {
    "/data/" + ns + "/sign/" + name + ".sha"
  }

  /** `p` lies inside the storage namespace of `ns`. */
  predicate InNamespace(p: string, ns: string) {
    IsPrefix("/data/" + ns + "/", p)
  }

  /** Both artifacts of a file sit inside its namespace, the ciphertext below the data root. */
  lemma PathsInNamespace(ns: string, name: string)
    ensures InNamespace(DataPath(ns, name), ns) && InNamespace(SignPath(ns, name), ns)
    ensures IsPrefix(DataRoot(ns) + "/", DataPath(ns, name))
  {
    var d := DataPath(ns, name);
    var s := SignPath(ns, name);
    assert d == ("/data/" + ns + "/") + ("data/" + name);
    assert s == ("/data/" + ns + "/") + ("sign/" + name + ".sha");
    assert d == (DataRoot(ns) + "/") + name;
  }

  /** Within one namespace a ciphertext path is never a signature path, whatever the names. */
  lemma DataNeverSign(ns: string, a: string, b: string)
    ensures DataPath(ns, a) != SignPath(ns, b)
  {
    var k := |"/data/" + ns + "/"|;
    assert DataPath(ns, a)[k] == 'd';
    assert SignPath(ns, b)[k] == 's';
  }

  /** Distinct file names have distinct ciphertext paths. */
  lemma DataPathInjective(ns: string, a: string, b: string)
    requires DataPath(ns, a) == DataPath(ns, b)
    ensures a == b
  {
    var k := |"/data/" + ns + "/data/"|;
    assert DataPath(ns, a)[k..] == a;
    assert DataPath(ns, b)[k..] == b;
  }

  /** Distinct file names have distinct signature paths. */
  lemma SignPathInjective(ns: string, a: string, b: string)
    requires SignPath(ns, a) == SignPath(ns, b)
    ensures a == b
  {
    var k := |"/data/" + ns + "/sign/"|;
    var pa := SignPath(ns, a);
    assert pa[k..|pa| - 4] == a;
    assert SignPath(ns, b)[k..|pa| - 4] == b;
  }

  /** Two namespaces free of '/' never share a path: a path names its namespace uniquely. */
  lemma NamespaceIsolation(p: string, ns1: string, ns2: string)
    requires '/' !in ns1 && '/' !in ns2
    requires InNamespace(p, ns1) && InNamespace(p, ns2)
    ensures ns1 == ns2
  {
    assert p[6 + |ns1|] == '/' && p[6 + |ns2|] == '/';
    assert forall i :: 6 <= i < 6 + |ns1| ==> p[i] == ns1[i - 6] != '/';
    assert forall i :: 6 <= i < 6 + |ns2| ==> p[i] == ns2[i - 6] != '/';
    assert ns1 == p[6..6 + |ns1|] == ns2;
  }

  /** Consequently the artifacts of distinct namespaces never collide. */
  lemma DistinctNamespacesDisjoint(ns1: string, ns2: string, a: string, b: string)
    requires '/' !in ns1 && '/' !in ns2 && ns1 != ns2
    ensures DataPath(ns1, a) != DataPath(ns2, b) && DataPath(ns1, a) != SignPath(ns2, b)
    ensures SignPath(ns1, a) != DataPath(ns2, b) && SignPath(ns1, a) != SignPath(ns2, b)
  {
    PathsInNamespace(ns1, a);
    PathsInNamespace(ns2, b);
    if DataPath(ns1, a) == DataPath(ns2, b) || DataPath(ns1, a) == SignPath(ns2, b) {
      NamespaceIsolation(DataPath(ns1, a), ns1, ns2);
    }
    if SignPath(ns1, a) == DataPath(ns2, b) || SignPath(ns1, a) == SignPath(ns2, b) {
      NamespaceIsolation(SignPath(ns1, a), ns1, ns2);
    }
  }
}

=== FILE: permissions.dfy ===
/** The permission check the routes can require (`checkRequiredPermissions`,
    src/middleware/auth0.js): every required permission must be among those the access token's
    `permissions` claim grants, or the request is refused with the token library's
    `InsufficientScopeError`. */
module Permissions {
  import opened Wrappers
  import opened Strings
  import opened Json
  import opened Errors

  /** `payload.permissions || []`: a missing or falsy claim is the empty list. */
  function GrantedClaim(payload: map<string, JsonValue>): (claim: JsonValue)
    ensures TruthyField(payload, "permissions") ==> claim == payload["permissions"]
    ensures !TruthyField(payload, "permissions") ==> claim == JArray([])
    ensures Truthy(claim) || claim == JArray([])
  {
    if TruthyField(payload, "permissions") then payload["permissions"] else JArray([])
  }

  /** `permissions.includes(p)` for a claim that has an `includes` method: array membership
      (strings compare by value) or, for a string claim, substring search. */
  predicate Includes(claim: JsonValue, p: string)
    requires claim.JArray? || claim.JString?
  {
    if claim.JArray? then JString(p) in claim.items else Contains(claim.s, p)
  }

  /** The first required permission the claim does not include, if any (`every` stops there). */
  function FirstMissing(claim: JsonValue, required: seq<string>): (r: Option<nat>)
    requires claim.JArray? || claim.JString?
    ensures r.None? <==> forall i :: 0 <= i < |required| ==> Includes(claim, required[i])
    ensures r.Some? ==> r.value < |required| && !Includes(claim, required[r.value])
                        && forall i :: 0 <= i < r.value ==> Includes(claim, required[i])
  {
    if required == [] then None
    else if !Includes(claim, required[0]) then Some(0)
    else match FirstMissing(claim, required[1..])
      case None => None
      case Some(i) => Some(i + 1)
  }

  /** The claim check: `requiredPermissions.every(p => permissions.includes(p))`, throwing
      `InsufficientScopeError` when it is false. `every` never calls the callback on an empty
      list, so a claim without an `includes` method only throws once something is required. */
  function CheckPermissions(payload: map<string, JsonValue>, required: seq<string>): (r: Result<bool, JsError>)
    ensures r.Ok? ==> r.value
    ensures required == [] ==> r == Ok(true)
    ensures r.Err? ==> r.error == InsufficientScope() || TypeError in r.error.classes
    ensures GrantedClaim(payload).JArray? ==>
              (r == Ok(true) <==> forall i :: 0 <= i < |required| ==> JString(required[i]) in GrantedClaim(payload).items)
    ensures GrantedClaim(payload).JArray? && r.Err? ==> r.error == InsufficientScope()
    ensures required != [] && !(GrantedClaim(payload).JArray? || GrantedClaim(payload).JString?) ==>
              r.Err? && TypeError in r.error.classes
    ensures GrantedClaim(payload).JString? ==>
              (r == Ok(true) <==> forall i :: 0 <= i < |required| ==> Contains(GrantedClaim(payload).s, required[i]))
  {
    var claim := GrantedClaim(payload);
    if required == [] then Ok(true)
    else if !(claim.JArray? || claim.JString?) then Err(RuntimeTypeError("permissions.includes is not a function"))
    else if FirstMissing(claim, required).None? then Ok(true)
    else Err(InsufficientScope())
  }

  /** Without a `permissions` claim only a route that requires nothing is allowed. */
  lemma MissingClaimGrantsNothing(payload: map<string, JsonValue>, required: seq<string>)
    requires "permissions" !in payload
    ensures CheckPermissions(payload, required).Ok? <==> required == []
    ensures required != [] ==> CheckPermissions(payload, required) == Err(InsufficientScope())
  {
    if required != [] {
      assert JString(required[0]) !in GrantedClaim(payload).items;
    }
  }

  /** Granting more never refuses a request that was allowed: the check is monotone in the
      granted list. */
  lemma MoreGrantsStillPass(payload: map<string, JsonValue>, more: seq<JsonValue>, required: seq<string>)
    requires GrantedClaim(payload).JArray?
    requires CheckPermissions(payload, required).Ok?
    requires forall v :: v in GrantedClaim(payload).items ==> v in more
    ensures CheckPermissions(payload["permissions" := JArray(more)], required).Ok?
  {
    var bigger := payload["permissions" := JArray(more)];
    assert GrantedClaim(bigger) == JArray(more);
    forall i | 0 <= i < |required| ensures JString(required[i]) in more {
      assert JString(required[i]) in GrantedClaim(payload).items;
    }
  }

  /** The check depends only on which permissions are required, not on their order or
      repetition: requirements with the same elements are decided alike. */
  lemma OrderIrrelevant(payload: map<string, JsonValue>, a: seq<string>, b: seq<string>)
    requires GrantedClaim(payload).JArray?
    requires forall p :: p in a <==> p in b
    ensures CheckPermissions(payload, a) == CheckPermissions(payload, b)
  {
    var items := GrantedClaim(payload).items;
    if CheckPermissions(payload, a).Ok? {
      forall i | 0 <= i < |b| ensures JString(b[i]) in items {
        assert b[i] in a;
      }
    }
    if CheckPermissions(payload, b).Ok? {
      forall i | 0 <= i < |a| ensures JString(a[i]) in items {
        assert a[i] in b;
      }
    }
  }

  /** A string claim is searched, not split: "read:files" grants the permission "read". */
  lemma StringClaimMatchesSubstrings()
    ensures CheckPermissions(map["permissions" := JString("read:files")], ["read"]) == Ok(true)
  {
    var claim := JString("read:files");
    assert OccursAt("read", claim.s, 0);
    assert Includes(claim, "read");
  }
}

=== FILE: pipeline.dfy ===
/** The secure-file request handlers (src/middleware/middlewares.js): upload signs and encrypts
    each file and stores the ciphertext and the detached signature side by side; read, delete and
    share first check that the route's `userID` is the caller's own, and read and share accept a
    file only once it decrypts and its signature verifies.

    A handler that hands an error to `next` is modelled as stopping there with `Err`; see README
    for how the handlers as written carry on after such a call. */
module Pipeline {
  import opened Wrappers
  import opened Encoding
  import opened Strings
  import opened Errors
  import opened Identity
  import opened Paths
  import opened Engine
  import opened Vault
  import opened Store
  import opened Listing

  /** A file of the multipart upload, held in memory. */
  datatype UploadedFile = UploadedFile(originalname: string, buffer: seq<byte>)

  /** The batch both `sign` and `encrypt` receive: the base64 of each file's bytes, in order. */
  function BatchInput(files: seq<UploadedFile>): (batch: seq<Base64>)
    ensures |batch| == |files|
    ensures forall i :: 0 <= i < |files| ==> batch[i] == Base64Of(files[i].buffer)
  {
    seq(|files|, i requires 0 <= i < |files| => Base64Of(files[i].buffer))
  }

  /** No later file of the upload has the same name as file `k`: its artifacts are the ones left. */
  predicate LastWithName(files: seq<UploadedFile>, k: nat)
    requires k < |files|
  {
    forall j :: k < j < |files| ==> files[j].originalname != files[k].originalname
  }

  /** `p` is one of the two paths the upload writes for some file. */
  predicate UploadTarget(ns: string, files: seq<UploadedFile>, p: string) {
    exists i :: 0 <= i < |files| && (p == DataPath(ns, files[i].originalname) || p == SignPath(ns, files[i].originalname))
  }

  /** The upload loop: for each file in order, write its ciphertext, then its signature. */
  function StoreUploads(s: Store, ns: string, files: seq<UploadedFile>, encs: seq<Blob>, sigs: seq<Blob>): (r: Store)
    requires |encs| == |files| && |sigs| == |files|
    decreases |files|
    ensures r.refused == s.refused
    ensures forall p :: !UploadTarget(ns, files, p) ==> (p in r.files <==> p in s.files)
    ensures forall p :: !UploadTarget(ns, files, p) && p in r.files ==> r.files[p] == s.files[p]
    ensures forall k :: 0 <= k < |files| && LastWithName(files, k) && DataPath(ns, files[k].originalname) !in s.refused ==>
              DataPath(ns, files[k].originalname) in r.files && r.files[DataPath(ns, files[k].originalname)] == encs[k]
    ensures forall k :: 0 <= k < |files| && LastWithName(files, k) && SignPath(ns, files[k].originalname) !in s.refused ==>
              SignPath(ns, files[k].originalname) in r.files && r.files[SignPath(ns, files[k].originalname)] == sigs[k]
  {
    if files == [] then s
    else
      var name := files[0].originalname;
      var next := Write(Write(s, DataPath(ns, name), encs[0]), SignPath(ns, name), sigs[0]);
      var r := StoreUploads(next, ns, files[1..], encs[1..], sigs[1..]);
      StoreUploadsFacts(s, ns, files, encs, sigs, next, r);
      r
  }

  /** How the first write pair and the rest of the loop combine into `StoreUploads`' contract. */
  lemma StoreUploadsFacts(s: Store, ns: string, files: seq<UploadedFile>, encs: seq<Blob>, sigs: seq<Blob>,
                          next: Store, r: Store)
    requires |encs| == |files| && |sigs| == |files| && files != []
    requires next == Write(Write(s, DataPath(ns, files[0].originalname), encs[0]), SignPath(ns, files[0].originalname), sigs[0])
    requires r.refused == next.refused
    requires forall p :: !UploadTarget(ns, files[1..], p) ==> (p in r.files <==> p in next.files)
    requires forall p :: !UploadTarget(ns, files[1..], p) && p in r.files ==> r.files[p] == next.files[p]
    requires forall k :: 0 <= k < |files[1..]| && LastWithName(files[1..], k) && DataPath(ns, files[1..][k].originalname) !in next.refused ==>
               DataPath(ns, files[1..][k].originalname) in r.files && r.files[DataPath(ns, files[1..][k].originalname)] == encs[1..][k]
    requires forall k :: 0 <= k < |files[1..]| && LastWithName(files[1..], k) && SignPath(ns, files[1..][k].originalname) !in next.refused ==>
               SignPath(ns, files[1..][k].originalname) in r.files && r.files[SignPath(ns, files[1..][k].originalname)] == sigs[1..][k]
    ensures r.refused == s.refused
    ensures forall p :: !UploadTarget(ns, files, p) ==> (p in r.files <==> p in s.files)
    ensures forall p :: !UploadTarget(ns, files, p) && p in r.files ==> r.files[p] == s.files[p]
    ensures forall k :: 0 <= k < |files| && LastWithName(files, k) && DataPath(ns, files[k].originalname) !in s.refused ==>
              DataPath(ns, files[k].originalname) in r.files && r.files[DataPath(ns, files[k].originalname)] == encs[k]
    ensures forall k :: 0 <= k < |files| && LastWithName(files, k) && SignPath(ns, files[k].originalname) !in s.refused ==>
              SignPath(ns, files[k].originalname) in r.files && r.files[SignPath(ns, files[k].originalname)] == sigs[k]
  {
    var rest := files[1..];
    var name := files[0].originalname;
    forall p | UploadTarget(ns, rest, p) ensures UploadTarget(ns, files, p) {
      var i :| 0 <= i < |rest| && (p == DataPath(ns, rest[i].originalname) || p == SignPath(ns, rest[i].originalname));
      assert files[i + 1] == rest[i];
    }
    assert UploadTarget(ns, files, DataPath(ns, name)) && UploadTarget(ns, files, SignPath(ns, name)) by {
      assert 0 < |files|;
    }
    forall k | 0 <= k < |files| && LastWithName(files, k)
      ensures DataPath(ns, files[k].originalname) !in s.refused ==>
                DataPath(ns, files[k].originalname) in r.files && r.files[DataPath(ns, files[k].originalname)] == encs[k]
      ensures SignPath(ns, files[k].originalname) !in s.refused ==>
                SignPath(ns, files[k].originalname) in r.files && r.files[SignPath(ns, files[k].originalname)] == sigs[k]
    {
      if k == 0 {
        LaterWritesMissFirst(ns, files);
      } else {
        assert rest[k - 1] == files[k];
        assert LastWithName(rest, k - 1);
      }
    }
  }

  /** When the first file's name does not recur, no later write touches its two paths. */
  lemma LaterWritesMissFirst(ns: string, files: seq<UploadedFile>)
    requires files != [] && LastWithName(files, 0)
    ensures !UploadTarget(ns, files[1..], DataPath(ns, files[0].originalname))
    ensures !UploadTarget(ns, files[1..], SignPath(ns, files[0].originalname))
  {
    var name := files[0].originalname;
    var rest := files[1..];
    forall i | 0 <= i < |rest|
      ensures DataPath(ns, name) != DataPath(ns, rest[i].originalname)
      ensures DataPath(ns, name) != SignPath(ns, rest[i].originalname)
      ensures SignPath(ns, name) != DataPath(ns, rest[i].originalname)
      ensures SignPath(ns, name) != SignPath(ns, rest[i].originalname)
    {
      assert files[i + 1] == rest[i];
      if DataPath(ns, name) == DataPath(ns, rest[i].originalname) {
        DataPathInjective(ns, name, rest[i].originalname);
      }
      if SignPath(ns, name) == SignPath(ns, rest[i].originalname) {
        SignPathInjective(ns, name, rest[i].originalname);
      }
      DataNeverSign(ns, name, rest[i].originalname);
      DataNeverSign(ns, rest[i].originalname, name);
    }
  }

  /** `signEncryptStore` for the storage namespace and key name `key`: sign the batch, encrypt
      it, then write each file's ciphertext and signature. The engine is not changed by either
      call, so only the store is returned. */
  function SignEncryptStore(s: Store, e: Engine, key: string, files: seq<UploadedFile>): (r: Result<Store, JsError>)
    ensures r.Ok? <==> Sign(e, key, BatchInput(files)).Ok? && Encrypt(e, key, BatchInput(files)).Ok?
    ensures Sign(e, key, BatchInput(files)).Err? ==> r == Err(Sign(e, key, BatchInput(files)).error)
    ensures Sign(e, key, BatchInput(files)).Ok? && Encrypt(e, key, BatchInput(files)).Err? ==>
              r == Err(Encrypt(e, key, BatchInput(files)).error)
    ensures r.Ok? ==> r.value.refused == s.refused
    ensures r.Ok? ==> forall p :: !UploadTarget(key, files, p) ==> (p in r.value.files <==> p in s.files)
    ensures r.Ok? ==> forall p :: !UploadTarget(key, files, p) && p in r.value.files ==> r.value.files[p] == s.files[p]
    ensures r.Ok? ==> forall k :: 0 <= k < |files| && LastWithName(files, k) && DataPath(key, files[k].originalname) !in s.refused ==>
              DataPath(key, files[k].originalname) in r.value.files && r.value.files[DataPath(key, files[k].originalname)] == Sealed(SymmetricKeyName(key), Base64Of(files[k].buffer))
    ensures r.Ok? ==> forall k :: 0 <= k < |files| && LastWithName(files, k) && SignPath(key, files[k].originalname) !in s.refused ==>
              SignPath(key, files[k].originalname) in r.value.files && r.value.files[SignPath(key, files[k].originalname)] ==
                Signed(AsymmetricKeyName(key), HashAlgorithm, MarshalingAlgorithm, Base64Of(files[k].buffer))
  {
    var batch := BatchInput(files);
    var signs :- Sign(e, key, batch);
    var encrypts :- Encrypt(e, key, batch);
    Ok(StoreUploads(s, key, files, encrypts, signs))
  }

  /** The two artifacts of `filePath` in namespace `uid` are the genuine ones for the bytes `b`:
      sealed under `uid`'s symmetric key and signed by `uid`'s asymmetric key. */
  predicate Genuine(s: Store, uid: string, filePath: string, b: seq<byte>) {
    && DataPath(uid, filePath) in s.files
    && s.files[DataPath(uid, filePath)] == Sealed(SymmetricKeyName(uid), Base64Of(b))
    && SignPath(uid, filePath) in s.files
    && s.files[SignPath(uid, filePath)] == Signed(AsymmetricKeyName(uid), HashAlgorithm, MarshalingAlgorithm, Base64Of(b))
  }

  /** Every file of the upload that is not overwritten by a later one of the same name, and whose
      paths the store accepts, is stored genuinely in namespace `ns`. */
  predicate UploadedAll(before: Store, after: Store, ns: string, files: seq<UploadedFile>) {
    forall k :: 0 <= k < |files| && LastWithName(files, k)
                && DataPath(ns, files[k].originalname) !in before.refused
                && SignPath(ns, files[k].originalname) !in before.refused ==>
      Genuine(after, ns, files[k].originalname, files[k].buffer)
  }

  /** The upload handler with the user's key-owner name as namespace and key name: the name the
      keys were provisioned under and the `userID` the guarded routes expect. */
  function Upload(sub: string, files: seq<UploadedFile>, s: Store, e: Engine): (r: Result<Store, JsError>)
    ensures Healthy(e) && Provisioned(e, KeyOwnerName(sub)) && files != [] ==> r.Ok?
    ensures files == [] ==> r.Err?
    ensures r.Ok? ==> UploadedAll(s, r.value, KeyOwnerName(sub), files)
    ensures r.Ok? ==> forall p :: !UploadTarget(KeyOwnerName(sub), files, p) ==> (p in r.value.files <==> p in s.files)
    ensures r.Ok? ==> forall p :: !UploadTarget(KeyOwnerName(sub), files, p) && p in r.value.files ==>
                        r.value.files[p] == s.files[p]
    ensures r.Ok? ==> r.value.refused == s.refused
    ensures r.Err? ==> files == [] || !HasSigningKey(e, AsymmetricKeyName(KeyOwnerName(sub)))
                       || !HasEncryptionKey(e, SymmetricKeyName(KeyOwnerName(sub))) || e.outages != map[]
  {
    SignEncryptStore(s, e, KeyOwnerName(sub), files)
  }

  /** The upload handler as written: `sub.replace('/.*\|/', '')` with a string pattern, so the
      namespace and key name are `sub` itself unless it contains that literal text. */
  function UploadAsWritten(sub: string, files: seq<UploadedFile>, s: Store, e: Engine): (r: Result<Store, JsError>)
    ensures !HasSigningKey(e, AsymmetricKeyName(LiteralNamespace(sub))) ==> r.Err?
    ensures r.Ok? ==> UploadedAll(s, r.value, LiteralNamespace(sub), files)
  {
    SignEncryptStore(s, e, LiteralNamespace(sub), files)
  }

  /** The listing handler with the key-owner name as namespace: exactly the files reachable below
      the user's data root, each named by a path below it. */
  function ListUserFiles(sub: string, root: seq<Node>): (files: seq<FileInfo>)
    ensures var ns := KeyOwnerName(sub);
            && (RootEntries(root, ns).None? ==> files == [])
            && (forall f :: f in files <==> RootEntries(root, ns).Some? && Reaches(DataRoot(ns), RootEntries(root, ns).value, f))
            && (forall i :: 0 <= i < |files| ==> IsPrefix(DataRoot(ns) + "/", files[i].name))
  {
    ListNamespace(root, KeyOwnerName(sub))
  }

  /** The listing handler as written, with the literal replace: the files below `/data/<sub>/data`. */
  function ListUserFilesAsWritten(sub: string, root: seq<Node>): (files: seq<FileInfo>)
    ensures var ns := LiteralNamespace(sub);
            && (forall f :: f in files <==> RootEntries(root, ns).Some? && Reaches(DataRoot(ns), RootEntries(root, ns).value, f))
            && (forall i :: 0 <= i < |files| ==> IsPrefix(DataRoot(ns) + "/", files[i].name))
  {
    ListNamespace(root, LiteralNamespace(sub))
  }

  // ------------------------------------------------------------------
  // Guarded routes
  // ------------------------------------------------------------------

  /** The common part of read and share: read the ciphertext and the signature, decrypt, and
      verify the decrypted content; a signature that does not verify is a status-500 error. The
      result is the decrypted content as a 'binary' string. */
  function Fetch(s: Store, e: Engine, uid: string, filePath: string): (r: Result<string, JsError>)
    ensures DataPath(uid, filePath) !in s.files ==> r == Err(NotFound(DataPath(uid, filePath)))
    ensures DataPath(uid, filePath) in s.files && SignPath(uid, filePath) !in s.files ==>
              r == Err(NotFound(SignPath(uid, filePath)))
    ensures r.Ok? ==>
              && DataPath(uid, filePath) in s.files && SignPath(uid, filePath) in s.files
              && s.files[DataPath(uid, filePath)].Sealed?
              && s.files[DataPath(uid, filePath)].keyName == SymmetricKeyName(uid)
              && r.value == ToBinary(s.files[DataPath(uid, filePath)].plaintext.bytes)
              && s.files[SignPath(uid, filePath)] ==
                   Signed(AsymmetricKeyName(uid), HashAlgorithm, MarshalingAlgorithm, s.files[DataPath(uid, filePath)].plaintext)
  {
    var file :- Read(s, DataPath(uid, filePath));
    var signature :- Read(s, SignPath(uid, filePath));
    var content :- Decrypt(e, uid, file);
    var valid :- Verify(e, uid, content, signature);
    if !valid then Err(SignatureNotVerified(filePath))
    else
      BinaryRoundTrip(file.plaintext.bytes);
      Ok(content)
  }

  /** `readDecryptVerify`: the file's bytes, only for the owner and only when its ciphertext opens
      under the owner's key and its signature by the owner's key verifies. */
  function ReadDecryptVerify(sub: string, uid: string, filePath: string, s: Store, e: Engine): (r: Result<seq<byte>, JsError>)
    ensures !OwnerGuard(sub, uid) ==> r == Err(Unauthorized401())
    ensures r.Ok? ==>
              && OwnerGuard(sub, uid)
              && DataPath(uid, filePath) in s.files && SignPath(uid, filePath) in s.files
              && s.files[DataPath(uid, filePath)] == Sealed(SymmetricKeyName(uid), Base64Of(r.value))
              && s.files[SignPath(uid, filePath)] ==
                   Signed(AsymmetricKeyName(uid), HashAlgorithm, MarshalingAlgorithm, Base64Of(r.value))
    ensures OwnerGuard(sub, uid) && Fetch(s, e, uid, filePath).Err? ==> r == Err(Fetch(s, e, uid, filePath).error)
  {
    if !OwnerGuard(sub, uid) then Err(Unauthorized401())
    else
      var content :- Fetch(s, e, uid, filePath);
      BinaryRoundTrip(s.files[DataPath(uid, filePath)].plaintext.bytes);
      Ok(FromBinary(content))
  }

  /** `deleteFile`: removes the ciphertext and the signature (each with anything below it), and
      nothing else. */
  function DeleteFile(sub: string, uid: string, filePath: string, s: Store): (r: Result<Store, JsError>)
    ensures !OwnerGuard(sub, uid) ==> r == Err(Unauthorized401())
    ensures OwnerGuard(sub, uid) ==> r.Ok?
    ensures r.Ok? ==> r.value.refused == s.refused && r.value.files.Keys <= s.files.Keys
    ensures r.Ok? ==> forall p :: p in r.value.files ==> r.value.files[p] == s.files[p]
    ensures r.Ok? ==> forall p :: !Beneath(p, DataPath(uid, filePath)) && !Beneath(p, SignPath(uid, filePath)) ==>
              (p in r.value.files <==> p in s.files)
    ensures r.Ok? && DataPath(uid, filePath) !in s.refused ==> DataPath(uid, filePath) !in r.value.files
    ensures r.Ok? && SignPath(uid, filePath) !in s.refused ==> SignPath(uid, filePath) !in r.value.files
  {
    if !OwnerGuard(sub, uid) then Err(Unauthorized401())
    else Ok(Remove(Remove(s, DataPath(uid, filePath)), SignPath(uid, filePath)))
  }

  /** What a handler as written leaves behind: the store, and the errors it handed to `next`. */
  datatype Handled = Handled(store: Store, errors: seq<JsError>)

  /** `deleteFile` as written: the failed ownership check calls `next(createError(401))` but does
      not return, so both removals still happen. */
  function DeleteFileAsWritten(sub: string, uid: string, filePath: string, s: Store): (h: Handled)
    ensures !OwnerGuard(sub, uid) ==> h.errors == [Unauthorized401()]
    ensures OwnerGuard(sub, uid) ==> h.errors == []
    ensures DataPath(uid, filePath) !in s.refused ==> DataPath(uid, filePath) !in h.store.files
    ensures SignPath(uid, filePath) !in s.refused ==> SignPath(uid, filePath) !in h.store.files
  {
    var errors := if OwnerGuard(sub, uid) then [] else [Unauthorized401()];
    Handled(Remove(Remove(s, DataPath(uid, filePath)), SignPath(uid, filePath)), errors)
  }

  /** `shareFile`: reads and checks the owner's copy, then signs and encrypts its bytes under the
      recipient's keys and writes the two artifacts into the recipient's namespace only. */
  function ShareFile(sub: string, uid: string, ruid: string, filePath: string, s: Store, e: Engine): (r: Result<Store, JsError>)
    ensures !OwnerGuard(sub, uid) ==> r == Err(Unauthorized401())
    ensures r.Ok? ==> OwnerGuard(sub, uid) && Fetch(s, e, uid, filePath).Ok?
    ensures r.Ok? ==> r.value.refused == s.refused
    ensures r.Ok? ==> forall p :: p != DataPath(ruid, filePath) && p != SignPath(ruid, filePath) ==>
              (p in r.value.files <==> p in s.files)
    ensures r.Ok? ==> forall p :: p != DataPath(ruid, filePath) && p != SignPath(ruid, filePath) && p in r.value.files ==>
              r.value.files[p] == s.files[p]
    ensures r.Ok? && DataPath(ruid, filePath) !in s.refused ==>
              DataPath(ruid, filePath) in r.value.files && r.value.files[DataPath(ruid, filePath)] == Sealed(SymmetricKeyName(ruid), s.files[DataPath(uid, filePath)].plaintext)
    ensures r.Ok? && SignPath(ruid, filePath) !in s.refused ==>
              SignPath(ruid, filePath) in r.value.files && r.value.files[SignPath(ruid, filePath)] ==
                Signed(AsymmetricKeyName(ruid), HashAlgorithm, MarshalingAlgorithm, s.files[DataPath(uid, filePath)].plaintext)
  {
    if !OwnerGuard(sub, uid) then Err(Unauthorized401())
    else
      var content :- Fetch(s, e, uid, filePath);
      var data := FromBinary(content);
      BinaryRoundTrip(s.files[DataPath(uid, filePath)].plaintext.bytes);
      var signs :- Sign(e, ruid, [Base64Of(data)]);
      var encrypts :- Encrypt(e, ruid, [Base64Of(data)]);
      DataNeverSign(ruid, filePath, filePath);
      Ok(Write(Write(s, DataPath(ruid, filePath), encrypts[0]), SignPath(ruid, filePath), signs[0]))
  }
}

=== FILE: protocol.dfy ===
/** End-to-end properties of the secure-file protocol: what a user gets back after uploading,
    sharing and deleting, what the ownership guard and the signature check refuse, and why the
    upload as written cannot serve the files it stores. */
module Protocol {
  import opened Wrappers
  import opened Encoding
  import opened Strings
  import opened Errors
  import opened Identity
  import opened Paths
  import opened Engine
  import opened Vault
  import opened Store
  import opened Provisioning
  import opened Pipeline
  import opened Listing

  /** The subject of the user whose route `userID` is `uid`. */
  function SubjectOf(uid: string): string {
    ProviderPrefix + uid
  }

  /** A plain user id: one line, no '|' and no '/'. */
  predicate PlainId(uid: string) {
    '|' !in uid && '/' !in uid && SingleLine(uid)
  }

  /** Reading genuine artifacts with a working engine and the user's keys gives back the bytes. */
  lemma GenuineReadsBack(uid: string, filePath: string, s: Store, e: Engine, b: seq<byte>)
    requires Healthy(e) && Provisioned(e, uid) && Genuine(s, uid, filePath, b)
    ensures ReadDecryptVerify(SubjectOf(uid), uid, filePath, s, e) == Ok(b)
  {
    BinaryRoundTrip(b);
    assert Fetch(s, e, uid, filePath) == Ok(ToBinary(b));
  }

  /** Upload, then read through the guarded route: the owner gets each file's bytes back. */
  lemma UploadThenRead(uid: string, files: seq<UploadedFile>, k: nat, s: Store, e: Engine)
    requires PlainId(uid)
    requires Healthy(e) && Provisioned(e, uid)
    requires k < |files| && LastWithName(files, k)
    requires DataPath(uid, files[k].originalname) !in s.refused && SignPath(uid, files[k].originalname) !in s.refused
    ensures Upload(SubjectOf(uid), files, s, e).Ok?
    ensures ReadDecryptVerify(SubjectOf(uid), uid, files[k].originalname, Upload(SubjectOf(uid), files, s, e).value, e)
            == Ok(files[k].buffer)
  {
    GuardedUserIsKeyOwner(SubjectOf(uid), uid);
    var after := Upload(SubjectOf(uid), files, s, e).value;
    GenuineReadsBack(uid, files[k].originalname, after, e, files[k].buffer);
  }

  /** A first login followed by an upload: the keys the setup route creates are the ones the
      upload signs and encrypts with. */
  lemma ProvisionThenUpload(uid: string, idp: IdentityProvider, e: Engine, files: seq<UploadedFile>, s: Store)
    requires PlainId(uid)
    requires Healthy(e) && !([] in e.keys) && Compatible(e, uid)
    requires idp.token.Ok? && idp.profile.Ok? && KeysCreatedFlag(idp.profile.value) == Ok(false)
    requires idp.updateReply.Ok? && UpdatedFlag(idp.updateReply.value) == Ok(true)
    ensures CheckOrCreateKeys(SubjectOf(uid), idp, e).outcome == Ok(true)
    ensures Upload(SubjectOf(uid), files, s, CheckOrCreateKeys(SubjectOf(uid), idp, e).engine).Ok? <==> files != []
  {
    GuardedUserIsKeyOwner(SubjectOf(uid), uid);
    FirstLoginProvisions(SubjectOf(uid), idp, e);
  }

  // ------------------------------------------------------------------
  // The upload and listing namespace as written
  // ------------------------------------------------------------------

  /** With the literal replace the upload signs with a key the setup route never creates: for a
      user whose key set is in place, the upload as written fails while the corrected one works. */
  lemma AsWrittenUploadUsesUnprovisionedKey(uid: string, files: seq<UploadedFile>, s: Store, e: Engine)
    requires PlainId(uid)
    requires Healthy(e) && Provisioned(e, uid)
    requires AsymmetricKeyName(SubjectOf(uid)) !in e.keys
    ensures UploadAsWritten(SubjectOf(uid), files, s, e).Err?
    ensures Upload(SubjectOf(uid), files, s, e).Ok? <==> files != []
  {
    LiteralNamespaceKeepsProviderPrefix(uid);
  }

  /** The same as a concrete case: user "alice" with her key set provisioned uploads "a.txt". */
  lemma AsWrittenUploadFailsForAlice()
    ensures var e := Engine(map[SymmetricKeyName("alice") := KeyConfig(SymmetricType, true, true, true),
                                AsymmetricKeyName("alice") := KeyConfig(AsymmetricType, true, true, true)],
                            map[]);
            var files := [UploadedFile("a.txt", [104, 105])];
            && UploadAsWritten("auth0|alice", files, Store(map[], {}), e).Err?
            && Upload("auth0|alice", files, Store(map[], {}), e).Ok?
  {
    var e := Engine(map[SymmetricKeyName("alice") := KeyConfig(SymmetricType, true, true, true),
                        AsymmetricKeyName("alice") := KeyConfig(AsymmetricType, true, true, true)],
                    map[]);
    assert PlainId("alice");
    assert SubjectOf("alice") == "auth0|alice";
    assert AsymmetricKeyName("auth0|alice") !in e.keys by {
      if AsymmetricKeyName("auth0|alice") == AsymmetricKeyName("alice") {
        KeyNameInjective("auth0|alice", "alice", AsymmetricType);
      }
      KeyNamesNeverCollide("alice", "auth0|alice");
    }
    AsWrittenUploadUsesUnprovisionedKey("alice", [UploadedFile("a.txt", [104, 105])], Store(map[], {}), e);
  }

  /** Even with keys under the full subject, the upload and the listing as written use the
      namespace `auth0|<uid>`: the guarded read for `uid` never looks there, and a read whose
      `userID` is `auth0|<uid>` is refused by the guard. */
  lemma AsWrittenNamespaceUnreachable(uid: string, name: string, other: string)
    requires PlainId(uid)
    ensures LiteralNamespace(SubjectOf(uid)) == SubjectOf(uid) != uid
    ensures DataPath(LiteralNamespace(SubjectOf(uid)), name) != DataPath(uid, other)
    ensures SignPath(LiteralNamespace(SubjectOf(uid)), name) != SignPath(uid, other)
    ensures !OwnerGuard(SubjectOf(uid), LiteralNamespace(SubjectOf(uid)))
  {
    LiteralNamespaceKeepsProviderPrefix(uid);
    SubjectIsSlashFree(uid);
    DistinctNamespacesDisjoint(SubjectOf(uid), uid, name, other);
  }

  /** The subject of a plain id is a different, '/'-free name. */
  lemma SubjectIsSlashFree(uid: string)
    requires PlainId(uid)
    ensures '/' !in SubjectOf(uid) && SubjectOf(uid) != uid
  {
    var ns := SubjectOf(uid);
    assert |ns| > |uid|;
    forall k | 0 <= k < |ns| ensures ns[k] != '/' {
      if k >= 6 { assert ns[k] == uid[k - 6]; }
    }
  }

  // ------------------------------------------------------------------
  // What the guard and the checks refuse
  // ------------------------------------------------------------------

  /** A caller whose subject is not `auth0|<userID>` is refused before any store access, and the
      error handler answers 401 "Unauthorized". */
  lemma ForeignCallerRefused(sub: string, uid: string, ruid: string, filePath: string, s: Store, e: Engine)
    requires !OwnerGuard(sub, uid)
    ensures ReadDecryptVerify(sub, uid, filePath, s, e) == Err(Unauthorized401())
    ensures DeleteFile(sub, uid, filePath, s) == Err(Unauthorized401())
    ensures ShareFile(sub, uid, ruid, filePath, s, e) == Err(Unauthorized401())
    ensures ErrorHandler(Unauthorized401()) == Reply(Some(401), "Unauthorized")
  {
  }

  /** As written, a caller who is not the owner is told 401 and still deletes the owner's file:
      "auth0|mallory" deleting alice's "a.txt". */
  lemma ForeignCallerDeletesAsWritten(s: Store, b: seq<byte>)
    requires Genuine(s, "alice", "a.txt", b)
    requires DataPath("alice", "a.txt") !in s.refused
    ensures var h := DeleteFileAsWritten("auth0|mallory", "alice", "a.txt", s);
            h.errors == [Unauthorized401()] && !Genuine(h.store, "alice", "a.txt", b)
  {
    assert !OwnerGuard("auth0|mallory", "alice") by {
      assert |ProviderPrefix + "alice"| != |"auth0|mallory"|;
    }
  }

  /** With the guard as an early exit a foreign caller's delete changes nothing and the owner's
      file stays readable. */
  lemma ForeignCallerCannotDelete(sub: string, uid: string, filePath: string, s: Store, e: Engine, b: seq<byte>)
    requires !OwnerGuard(sub, uid)
    requires Healthy(e) && Provisioned(e, uid) && Genuine(s, uid, filePath, b)
    ensures DeleteFile(sub, uid, filePath, s) == Err(Unauthorized401())
    ensures ReadDecryptVerify(SubjectOf(uid), uid, filePath, s, e) == Ok(b)
  {
    GenuineReadsBack(uid, filePath, s, e, b);
  }

  /** Every file the corrected listing reports lies below `/data/<uid>/data/`, the directory the
      owner's guarded read route addresses. */
  lemma ListingMatchesReadRoute(uid: string, root: seq<Node>)
    requires PlainId(uid)
    ensures OwnerGuard(SubjectOf(uid), uid)
    ensures var files := ListUserFiles(SubjectOf(uid), root);
            forall i :: 0 <= i < |files| ==> IsPrefix(DataRoot(uid) + "/", files[i].name)
  {
    GuardedUserIsKeyOwner(SubjectOf(uid), uid);
  }

  /** A substituted signature is caught and no content is returned. A signature the engine can
      parse, but made by another key or over other bytes, is answered `valid: false` and the read
      fails with the status-500 verification error; any other replacement text is rejected by the
      engine itself, and the read fails with that rejection, also answered with status 500. */
  lemma TamperedSignatureRejected(uid: string, filePath: string, s: Store, e: Engine, b: seq<byte>, forged: Blob)
    requires Healthy(e) && Provisioned(e, uid)
    requires DataPath(uid, filePath) in s.files && s.files[DataPath(uid, filePath)] == Sealed(SymmetricKeyName(uid), Base64Of(b))
    requires SignPath(uid, filePath) in s.files && s.files[SignPath(uid, filePath)] == forged
    requires forged != Signed(AsymmetricKeyName(uid), HashAlgorithm, MarshalingAlgorithm, Base64Of(b))
    ensures ReadDecryptVerify(SubjectOf(uid), uid, filePath, s, e).Err?
    ensures WellFormedSignature(forged, MarshalingAlgorithm) ==>
              ReadDecryptVerify(SubjectOf(uid), uid, filePath, s, e) == Err(SignatureNotVerified(filePath))
    ensures !WellFormedSignature(forged, MarshalingAlgorithm) ==>
              ReadDecryptVerify(SubjectOf(uid), uid, filePath, s, e) == Err(MalformedSignature())
    ensures ErrorHandler(SignatureNotVerified(filePath)) ==
              Reply(Some(500), "Digital Signature for the file " + filePath + " could not be verified.")
    ensures ErrorHandler(MalformedSignature()) == Reply(Some(500), "invalid signature")
  {
    BinaryRoundTrip(b);
    if WellFormedSignature(forged, MarshalingAlgorithm) {
      assert Fetch(s, e, uid, filePath) == Err(SignatureNotVerified(filePath));
    } else {
      assert Fetch(s, e, uid, filePath) == Err(MalformedSignature());
    }
  }

  /** A ciphertext sealed for another user, even with a matching signature, is never returned. */
  lemma ForeignCiphertextNeverRead(uid: string, other: string, filePath: string, s: Store, e: Engine)
    requires uid != other
    requires DataPath(uid, filePath) in s.files && s.files[DataPath(uid, filePath)].Sealed?
    requires s.files[DataPath(uid, filePath)].keyName == SymmetricKeyName(other)
    ensures ReadDecryptVerify(SubjectOf(uid), uid, filePath, s, e).Err?
  {
    if SymmetricKeyName(other) == SymmetricKeyName(uid) {
      KeyNameInjective(other, uid, SymmetricType);
    }
  }

  // ------------------------------------------------------------------
  // Share and delete
  // ------------------------------------------------------------------

  /** Share, then the recipient reads the file through their own guarded route and gets the
      owner's bytes. */
  lemma ShareThenRecipientRead(uid: string, ruid: string, filePath: string, s: Store, e: Engine, b: seq<byte>)
    requires Healthy(e) && Provisioned(e, uid) && Provisioned(e, ruid)
    requires Genuine(s, uid, filePath, b)
    requires DataPath(ruid, filePath) !in s.refused && SignPath(ruid, filePath) !in s.refused
    ensures ShareFile(SubjectOf(uid), uid, ruid, filePath, s, e).Ok?
    ensures Genuine(ShareFile(SubjectOf(uid), uid, ruid, filePath, s, e).value, ruid, filePath, b)
    ensures ReadDecryptVerify(SubjectOf(ruid), ruid, filePath, ShareFile(SubjectOf(uid), uid, ruid, filePath, s, e).value, e)
            == Ok(b)
  {
    BinaryRoundTrip(b);
    assert Fetch(s, e, uid, filePath) == Ok(ToBinary(b));
    var after := ShareFile(SubjectOf(uid), uid, ruid, filePath, s, e).value;
    GenuineReadsBack(ruid, filePath, after, e, b);
  }

  /** A path at or below a path of namespace `ns` is itself in namespace `ns`. */
  lemma BeneathStaysInNamespace(p: string, q: string, ns: string)
    requires Beneath(p, q) && InNamespace(q, ns)
    ensures InNamespace(p, ns)
  {
    if p != q {
      assert p[..|q + "/"|] == q + "/";
      assert (q + "/")[..|"/data/" + ns + "/"|] == "/data/" + ns + "/";
    }
  }

  /** Deleting removes the owner's copy: a later read rejects as missing. */
  lemma DeleteThenRead(uid: string, filePath: string, s: Store, e: Engine)
    requires DataPath(uid, filePath) !in s.refused
    ensures DeleteFile(SubjectOf(uid), uid, filePath, s).Ok?
    ensures ReadDecryptVerify(SubjectOf(uid), uid, filePath, DeleteFile(SubjectOf(uid), uid, filePath, s).value, e)
            == Err(NotFound(DataPath(uid, filePath)))
  {
  }

  /** A shared copy is the recipient's own: the owner deleting the original leaves it readable. */
  lemma OwnerDeleteKeepsShare(uid: string, ruid: string, filePath: string, s: Store, e: Engine, b: seq<byte>)
    requires PlainId(uid) && PlainId(ruid) && uid != ruid
    requires Healthy(e) && Provisioned(e, uid) && Provisioned(e, ruid)
    requires Genuine(s, uid, filePath, b)
    requires DataPath(ruid, filePath) !in s.refused && SignPath(ruid, filePath) !in s.refused
    ensures ShareFile(SubjectOf(uid), uid, ruid, filePath, s, e).Ok?
    ensures var shared := ShareFile(SubjectOf(uid), uid, ruid, filePath, s, e).value;
            ReadDecryptVerify(SubjectOf(ruid), ruid, filePath, DeleteFile(SubjectOf(uid), uid, filePath, shared).value, e)
            == Ok(b)
  {
    ShareThenRecipientRead(uid, ruid, filePath, s, e, b);
    var shared := ShareFile(SubjectOf(uid), uid, ruid, filePath, s, e).value;
    var gone := DeleteFile(SubjectOf(uid), uid, filePath, shared).value;
    PathsInNamespace(uid, filePath);
    PathsInNamespace(ruid, filePath);
    forall p | p == DataPath(ruid, filePath) || p == SignPath(ruid, filePath)
      ensures !Beneath(p, DataPath(uid, filePath)) && !Beneath(p, SignPath(uid, filePath))
    {
      if Beneath(p, DataPath(uid, filePath)) {
        BeneathStaysInNamespace(p, DataPath(uid, filePath), uid);
        NamespaceIsolation(p, uid, ruid);
      }
      if Beneath(p, SignPath(uid, filePath)) {
        BeneathStaysInNamespace(p, SignPath(uid, filePath), uid);
        NamespaceIsolation(p, uid, ruid);
      }
    }
    assert Genuine(gone, ruid, filePath, b);
    GenuineReadsBack(ruid, filePath, gone, e, b);
  }
}

=== FILE: provisioning.dfy ===
/** First-login key provisioning (`checkOrCreateKeys`, src/middleware/middlewares.js): read the
    user's `keysCreated` flag from the identity provider, and if it is not set create the user's
    key set, confirm it by listing the engine's keys, and set the flag. */
module Provisioning {
  import opened Wrappers
  import opened Strings
  import opened Json
  import opened Errors
  import opened Identity
  import opened Engine
  import opened Vault

  /** What the identity provider's three calls answer: the management token, the user's profile
      (`?fields=app_metadata`) and the reply to the flag update, each already parsed as JSON, or
      the error the call rejects with. */
  datatype IdentityProvider = IdentityProvider(
    token: Result<string, JsError>,
    profile: Result<JsonValue, JsError>,
    updateReply: Result<JsonValue, JsError>)

  /** The engine after the call, and what the call resolves or rejects with. */
  datatype Provision = Provision(engine: Engine, outcome: Result<bool, JsError>)

  /** The profile holds `app_metadata` as an object whose `keysCreated` is exactly `true`. */
  predicate FlagSet(profile: JsonValue) {
    && profile.JObject?
    && "app_metadata" in profile.fields
    && profile.fields["app_metadata"].JObject?
    && "keysCreated" in profile.fields["app_metadata"].fields
    && profile.fields["app_metadata"].fields["keysCreated"] == JBool(true)
  }

  /** Reading `.keysCreated` on a missing or null `app_metadata`. */
  function NoAppMetadata(appMetadata: Option<JsonValue>): JsError {
    if appMetadata == Some(JNull) then RuntimeTypeError("Cannot read properties of null (reading 'keysCreated')")
    else RuntimeTypeError("Cannot read properties of undefined (reading 'keysCreated')")
  }

  /** The `keysCreated` decision on the fetched `profile`.
      A value with no own keys (an empty object, array or string, a number, a boolean) gives false;
      one with keys but no usable `app_metadata` throws; otherwise only an exact `true` counts. */
  function KeysCreatedFlag(profile: JsonValue): (r: Result<bool, JsError>)
    ensures r == Ok(true) <==> FlagSet(profile)
    ensures profile == JObject(map[]) ==> r == Ok(false)
    ensures r.Err? <==>
              || profile.JNull?
              || (profile.JString? && profile.s != [])
              || (profile.JArray? && profile.items != [])
              || (profile.JObject? && profile.fields != map[]
                  && ("app_metadata" !in profile.fields || profile.fields["app_metadata"].JNull?))
    ensures r.Err? ==> TypeError in r.error.classes
  {
    match profile
    case JNull => Err(RuntimeTypeError("Cannot convert undefined or null to object"))
    case JBool(_) => Ok(false)
    case JNumber(_) => Ok(false)
    case JString(s) => if s == [] then Ok(false) else Err(NoAppMetadata(None))
    case JArray(items) => if items == [] then Ok(false) else Err(NoAppMetadata(None))
    case JObject(fields) =>
      if |fields| == 0 then Ok(false)
      else if "app_metadata" !in fields then Err(NoAppMetadata(None))
      else match fields["app_metadata"]
        case JNull => Err(NoAppMetadata(Some(JNull)))
        case JObject(m) => Ok("keysCreated" in m && m["keysCreated"] == JBool(true))
        case _ => Ok(false)
  }

  /** `json.app_metadata.keysCreated` of the update reply, tested for truthiness by `!updated`. */
  function UpdatedFlag(reply: JsonValue): (r: Result<bool, JsError>)
    ensures r == Ok(true) <==>
              && reply.JObject? && "app_metadata" in reply.fields
              && reply.fields["app_metadata"].JObject?
              && TruthyField(reply.fields["app_metadata"].fields, "keysCreated")
    ensures r.Err? <==>
              !reply.JObject? || "app_metadata" !in reply.fields || reply.fields["app_metadata"].JNull?
  {
    match reply
    case JNull => Err(RuntimeTypeError("Cannot read properties of null (reading 'app_metadata')"))
    case JObject(fields) =>
      if "app_metadata" !in fields then Err(NoAppMetadata(None))
      else (match fields["app_metadata"]
        case JNull => Err(NoAppMetadata(Some(JNull)))
        case JObject(m) => Ok(TruthyField(m, "keysCreated"))
        case _ => Ok(false))
    case _ => Err(NoAppMetadata(None))
  }

  /** `keys.find(value => value.includes(user))` is truthy. The engine lists key names in
      lexicographic order, so when `user` is empty the first match is the smallest name, and that
      is the empty name — the one falsy match — whenever the engine holds it. */
  predicate KeyListed(names: set<string>, user: string) {
    (exists k :: k in names && Contains(k, user)) && !(user == [] && [] in names)
  }

  const CreationNotConfirmed: string := "Failed to create cryptographic keys for the user."
  const FlagNotUpdated: string := "Failed to create keys for the user."

  /** `checkOrCreateKeys(user_id)` with `user_id` the verified subject `sub`. */
  function CheckOrCreateKeys(sub: string, idp: IdentityProvider, e: Engine): (p: Provision)
    ensures p.engine.outages == e.outages
    ensures OthersUnchanged(e, p.engine, KeyOwnerName(sub))
    ensures p.outcome.Ok? ==> p.outcome.value
    ensures idp.token.Ok? && idp.profile.Ok? && KeysCreatedFlag(idp.profile.value) == Ok(true) ==>
              p == Provision(e, Ok(true))
    ensures idp.token.Err? ==> p == Provision(e, Err(idp.token.error))
    ensures p.outcome.Ok? && p.engine != e ==>
              && KeyReady(e, p.engine, SymmetricKeyName(KeyOwnerName(sub)), SymmetricType)
              && KeyReady(e, p.engine, AsymmetricKeyName(KeyOwnerName(sub)), AsymmetricType)
    ensures p.outcome.Ok? <==>
              && idp.token.Ok? && idp.profile.Ok? && KeysCreatedFlag(idp.profile.value).Ok?
              && (|| KeysCreatedFlag(idp.profile.value) == Ok(true)
                  || (&& CreateKeys(e, KeyOwnerName(sub)).failure.None?
                      && ListKeys(CreateKeys(e, KeyOwnerName(sub)).engine).Ok?
                      && KeyListed(ListKeys(CreateKeys(e, KeyOwnerName(sub)).engine).value, KeyOwnerName(sub))
                      && idp.updateReply.Ok? && UpdatedFlag(idp.updateReply.value) == Ok(true)))
  {
    var user := KeyOwnerName(sub);
    if idp.token.Err? then Provision(e, Err(idp.token.error))
    else if idp.profile.Err? then Provision(e, Err(idp.profile.error))
    else match KeysCreatedFlag(idp.profile.value)
      case Err(err) => Provision(e, Err(err))
      case Ok(true) => Provision(e, Ok(true))
      case Ok(false) =>
        var run := CreateKeys(e, user);
        if run.failure.Some? then Provision(run.engine, Err(run.failure.value))
        else match ListKeys(run.engine)
          case Err(err) => Provision(run.engine, Err(err))
          case Ok(names) =>
            if !KeyListed(names, user) then Provision(run.engine, Err(Plain(CreationNotConfirmed)))
            else match idp.updateReply
              case Err(err) => Provision(run.engine, Err(err))
              case Ok(reply) =>
                match UpdatedFlag(reply)
                case Err(err) => Provision(run.engine, Err(err))
                case Ok(updated) =>
                  if !updated then Provision(run.engine, Err(Plain(FlagNotUpdated)))
                  else Provision(run.engine, Ok(true))
  }

  /** Neither of the user's key names is already taken by a key of another type. */
  predicate Compatible(e: Engine, user: string) {
    && (SymmetricKeyName(user) in e.keys ==> e.keys[SymmetricKeyName(user)].keyType == SymmetricType)
    && (AsymmetricKeyName(user) in e.keys ==> e.keys[AsymmetricKeyName(user)].keyType == AsymmetricType)
  }

  /** A completed `createKeys` leaves both of the user's keys in place with their types, unless a
      key of another type already held one of the names: creating an existing key changes nothing. */
  lemma ProvisionedAfterCreate(e: Engine, user: string)
    requires Compatible(e, user)
    requires CreateKeys(e, user).failure.None?
    ensures Provisioned(CreateKeys(e, user).engine, user)
  {
    var run := CreateKeys(e, user);
    var sym, asym := SymmetricKeyName(user), AsymmetricKeyName(user);
    assert KeyReady(e, run.engine, sym, SymmetricType);
    assert KeyReady(e, run.engine, asym, AsymmetricType);
  }

  /** The listing confirmation cannot fail after a completed `createKeys`: the new symmetric
      key's name contains the user's name. Only the empty user with an empty-named key trips it. */
  lemma ConfirmationFollowsCreation(e: Engine, user: string)
    requires CreateKeys(e, user).failure.None?
    requires ListKeyNames !in e.outages
    requires !(user == [] && [] in e.keys)
    ensures ListKeys(CreateKeys(e, user).engine).Ok?
    ensures KeyListed(ListKeys(CreateKeys(e, user).engine).value, user)
  {
    var run := CreateKeys(e, user);
    var sym := SymmetricKeyName(user);
    assert sym in run.engine.keys;
    assert OccursAt(user, sym, 0);
    if user == [] {
      assert [] !in run.engine.keys by {
        KeyNamesNeverEmpty(user);
        assert UnchangedOutside(e, run.engine, {sym, AsymmetricKeyName(user)});
      }
    }
  }

  /** Derived key names are never empty. */
  lemma KeyNamesNeverEmpty(user: string)
    ensures SymmetricKeyName(user) != [] && AsymmetricKeyName(user) != []
  {
    assert |SymmetricKeyName(user)| > 0;
  }

  /** A first login against a working engine and provider ends with the user's key set in place
      and the call resolving to true. */
  lemma FirstLoginProvisions(sub: string, idp: IdentityProvider, e: Engine)
    requires Healthy(e) && !([] in e.keys) && Compatible(e, KeyOwnerName(sub))
    requires idp.token.Ok? && idp.profile.Ok? && KeysCreatedFlag(idp.profile.value) == Ok(false)
    requires idp.updateReply.Ok? && UpdatedFlag(idp.updateReply.value) == Ok(true)
    ensures CheckOrCreateKeys(sub, idp, e).outcome == Ok(true)
    ensures Provisioned(CheckOrCreateKeys(sub, idp, e).engine, KeyOwnerName(sub))
  {
    var user := KeyOwnerName(sub);
    assert CreateKeys(e, user).failure.None?;
    ConfirmationFollowsCreation(e, user);
    ProvisionedAfterCreate(e, user);
  }

  /** Once the flag is set the call is a no-op on the engine: running setup again changes nothing. */
  lemma FlagSetSkipsCreation(sub: string, idp: IdentityProvider, e: Engine)
    requires idp.token.Ok? && idp.profile.Ok? && FlagSet(idp.profile.value)
    ensures CheckOrCreateKeys(sub, idp, e) == Provision(e, Ok(true))
  {
  }
}

=== FILE: store.dfy ===
/** The content-addressed file store's mutable file system as the pipeline uses it
    (src/utils/ipfs.js): a map from path to stored artifact. `write` and `rm` catch their own
    errors and hand them back as values, which no caller inspects, so both are total: a write or a
    removal the store refuses simply leaves it as it was. `read` does throw. */
module Store {
  import opened Wrappers
  import opened Strings
  import opened Errors
  import opened Engine

  /** The stored files, and the paths the store refuses to write or remove (a path below a
      file, a read-only mount): an operation on one of them fails and is silently dropped. */
  datatype Store = Store(files: map<string, Blob>, refused: set<string>)

  /** The rejection of a read of a path that holds no file. */
  function NotFound(path: string): JsError {
    JsError({StoreError}, None, Some("file does not exist"))
  }

  /** `read(path)`: the artifact stored at `path`; a missing file rejects. */
  function Read(s: Store, path: string): (r: Result<Blob, JsError>)
    ensures r.Ok? <==> path in s.files
    ensures r.Ok? ==> r.value == s.files[path]
    ensures r.Err? ==> r.error == NotFound(path)
  {
    if path in s.files then Ok(s.files[path]) else Err(NotFound(path))
  }

  /** `write(path, content)` (create, parents): the file at `path` now holds `content`, and
      nothing else changes; a refused write changes nothing and is not reported. */
  function Write(s: Store, path: string, content: Blob): (r: Store)
    ensures r.refused == s.refused
    ensures path !in s.refused ==> path in r.files && r.files[path] == content
    ensures path in s.refused ==> r == s
    ensures forall p :: p != path ==> (p in r.files <==> p in s.files)
    ensures forall p :: p != path && p in r.files ==> r.files[p] == s.files[p]
  {
    if path in s.refused then s else s.(files := s.files[path := content])
  }

  /** The text a file holds after `write(path, content)` as the client issues it, without
      `truncate`: the new text overwrites the start of the old file, and an old file longer than
      the new text keeps its tail. `Write` models the replacement the pipeline relies on. */
  function OverwriteAsWritten(existing: Option<string>, content: string): (r: string)
    ensures |content| <= |r| && r[..|content|] == content
    ensures existing.Some? && |content| < |existing.value| ==>
              |r| == |existing.value| && r[|content|..] == existing.value[|content|..]
    ensures r == content <==> existing.None? || |existing.value| <= |content|
  {
    if existing.Some? && |content| < |existing.value| then content + existing.value[|content|..]
    else content
  }

  /** Re-uploading a shorter ciphertext over a longer one leaves a text that is neither: the
      old ciphertext's tail follows the new one. */
  lemma ShorterOverwriteKeepsTail()
    ensures OverwriteAsWritten(Some("vault:v1:ABCDEF"), "vault:v1:XY") == "vault:v1:XYCDEF"
    ensures OverwriteAsWritten(Some("vault:v1:ABCDEF"), "vault:v1:XY") != "vault:v1:XY"
  {
    assert "vault:v1:ABCDEF"[11..] == "CDEF";
    assert "vault:v1:XY" + "CDEF" == "vault:v1:XYCDEF";
  }

  /** `p` is `path` itself or lies below it. */
  predicate Beneath(p: string, path: string) {
    p == path || IsPrefix(path + "/", p)
  }

  /** `rm(path)` (recursive): the file at `path` and everything below it is gone, and nothing
      else changes; a refused or missing path changes nothing and is not reported. */
  function Remove(s: Store, path: string): (r: Store)
    ensures r.refused == s.refused
    ensures path !in s.refused ==> forall p :: Beneath(p, path) ==> p !in r.files
    ensures path in s.refused ==> r == s
    ensures forall p :: !Beneath(p, path) ==> (p in r.files <==> p in s.files)
    ensures r.files.Keys <= s.files.Keys
    ensures forall p :: p in r.files ==> r.files[p] == s.files[p]
  {
    if path in s.refused then s
    else s.(files := map p | p in s.files && !Beneath(p, path) :: s.files[p])
  }

  /** A write is read back. */
  lemma ReadYourWrite(s: Store, path: string, content: Blob)
    requires path !in s.refused
    ensures Read(Write(s, path, content), path) == Ok(content)
  {
  }

  /** A write or a removal at one path leaves a read of an unrelated path as it was. */
  lemma ReadElsewhere(s: Store, path: string, content: Blob, other: string)
    requires !Beneath(other, path)
    ensures Read(Write(s, path, content), other) == Read(s, other)
    ensures Read(Remove(s, path), other) == Read(s, other)
  {
  }

  /** After a removal a read of the removed path rejects as missing. */
  lemma ReadAfterRemove(s: Store, path: string)
    requires path !in s.refused
    ensures Read(Remove(s, path), path) == Err(NotFound(path))
  {
  }
}

=== FILE: strings.dfy ===
/** The few JavaScript string operations the system relies on, over `seq<char>`. */
module Strings {
  import opened Wrappers

  /** `pat` occurs in `s` starting at index `i`. */
  predicate OccursAt(pat: string, s: string, i: nat) {
    i + |pat| <= |s| && s[i..i + |pat|] == pat
  }

  /** `s.startsWith(p)`. */
  predicate IsPrefix(p: string, s: string) {
    |p| <= |s| && s[..|p|] == p
  }

  /** `s.includes(pat)`: `pat` is a substring of `s` (the empty string is a substring of everything). */
  predicate Contains(s: string, pat: string) {
    exists i: nat :: i <= |s| && OccursAt(pat, s, i)
  }

  /** `i` is the first index at which `pat` occurs in `s`. */
  predicate FirstAt(pat: string, s: string, i: nat) {
    OccursAt(pat, s, i) && forall j: nat :: j < i ==> !OccursAt(pat, s, j)
  }

  /** The first occurrence of `pat` in `s` at or after `from` (`s.indexOf(pat, from)`). */
  function IndexOf(s: string, pat: string, from: nat): (r: Option<nat>)
    decreases |s| - from
    ensures r.Some? ==> from <= r.value && OccursAt(pat, s, r.value)
    ensures r.Some? ==> forall j: nat :: from <= j < r.value ==> !OccursAt(pat, s, j)
    ensures r.None? ==> forall j: nat :: from <= j ==> !OccursAt(pat, s, j)
  {
    if from + |pat| > |s| then None
    else if OccursAt(pat, s, from) then Some(from)
    else IndexOf(s, pat, from + 1)
  }

  /** `s.replace(pat, '')` with a STRING pattern: the first literal occurrence of `pat` is removed
      and nothing else changes; without an occurrence the string is returned as it is. */
  function RemoveFirst(s: string, pat: string): (r: string)
    ensures !Contains(s, pat) ==> r == s
    ensures forall i: nat :: FirstAt(pat, s, i) ==> r == s[..i] + s[i + |pat|..]
  {
    match IndexOf(s, pat, 0)
    case None => s
    case Some(i) => s[..i] + s[i + |pat|..]
  }
}

=== FILE: vault.dfy ===
/** The client of the cryptographic engine (src/utils/vault.js): which key names a user's key set
    consists of, the requests that create and delete it, and which key each cryptographic call
    addresses. Every engine rejection is passed on unchanged. */
module Vault {
  import opened Wrappers
  import opened Encoding
  import opened Errors
  import opened Engine

  const SymmetricType: string := "aes256-gcm96"
  const AsymmetricType: string := "ecdsa-p521"

  /** `Object.values(keyTypes)`: the key types of a key set, symmetric first. */
  const KeyTypes: seq<string> := [SymmetricType, AsymmetricType]

  const HashAlgorithm: string := "sha2-512"
  const MarshalingAlgorithm: string := "asn1"

  /** The engine name of the key of type `keyType` belonging to user key `key`. */
  function KeyName(key: string, keyType: string): string {
    key + "-" + keyType
  }

  function SymmetricKeyName(key: string): string {
    KeyName(key, SymmetricType)
  }

  function AsymmetricKeyName(key: string): string {
    KeyName(key, AsymmetricType)
  }

  /** A symmetric key name is never an asymmetric key name, for any two users. */
  lemma KeyNamesNeverCollide(a: string, b: string)
    ensures SymmetricKeyName(a) != AsymmetricKeyName(b)
  {
    var s := SymmetricKeyName(a);
    var t := AsymmetricKeyName(b);
    assert s[|s| - 1] == '6';
    assert t[|t| - 1] == '1';
  }

  /** Distinct users have distinct key names of each type. */
  lemma KeyNameInjective(a: string, b: string, keyType: string)
    requires KeyName(a, keyType) == KeyName(b, keyType)
    ensures a == b
  {
    var n := KeyName(a, keyType);
    assert n[..|n| - |keyType| - 1] == a;
    assert KeyName(b, keyType)[..|n| - |keyType| - 1] == b;
  }

  /** The engine is serving every request. */
  predicate Healthy(e: Engine) {
    e.outages == map[]
  }

  /** Both keys of `key`'s set exist with the types the client created them with. */
  predicate Provisioned(e: Engine, key: string) {
    && SymmetricKeyName(key) in e.keys && e.keys[SymmetricKeyName(key)].keyType == SymmetricType
    && AsymmetricKeyName(key) in e.keys && e.keys[AsymmetricKeyName(key)].keyType == AsymmetricType
  }

  lemma ProvisionedKeysUsable(e: Engine, key: string)
    requires Provisioned(e, key)
    ensures HasEncryptionKey(e, SymmetricKeyName(key)) && HasSigningKey(e, AsymmetricKeyName(key))
  {
  }

  // ------------------------------------------------------------------
  // Sequences of management requests
  // ------------------------------------------------------------------

  /** The engine after a sequence of requests, and the error that stopped it, if any. */
  datatype Run = Run(engine: Engine, failure: Option<JsError>)

  /** Sends the requests in order; the first rejection is rethrown and the rest are never sent. */
  function RunAll(e: Engine, rs: seq<Request>): (run: Run)
    decreases |rs|
    ensures run.engine.outages == e.outages
    ensures (forall i :: 0 <= i < |rs| ==> !Mutating(rs[i])) ==> run.engine == e
    ensures |rs| > 0 && rs[0] in e.outages ==> run == Run(e, Some(e.outages[rs[0]]))
  {
    if rs == [] then Run(e, None)
    else match Handle(e, rs[0])
      case Err(err) => Run(e, Some(err))
      case Ok(a) => RunAll(a.engine, rs[1..])
  }

  /** Running `a + b` runs `a`, and runs `b` only if `a` got through: a failure aborts the rest
      and keeps whatever the earlier requests did. */
  lemma {:induction false} RunAllAppend(e: Engine, a: seq<Request>, b: seq<Request>)
    decreases |a|
    ensures RunAll(e, a + b) ==
              (var first := RunAll(e, a); if first.failure.Some? then first else RunAll(first.engine, b))
  {
    if a == [] {
      assert a + b == b;
    } else {
      assert (a + b)[0] == a[0];
      assert (a + b)[1..] == a[1..] + b;
      match Handle(e, a[0])
      case Err(_) =>
      case Ok(x) => RunAllAppend(x.engine, a[1..], b);
    }
  }

  /** The requests `createKeys(name)` sends for the given key types: for each type, create the
      key (exportable, plaintext backup allowed) and then allow its deletion. */
  function CreateRequests(name: string, types: seq<string>): (rs: seq<Request>)
    ensures |rs| == 2 * |types|
    ensures forall i :: 0 <= i < |types| ==>
              rs[2 * i] == CreateKey(KeyName(name, types[i]), types[i], true, true)
              && rs[2 * i + 1] == ConfigureKey(KeyName(name, types[i]), true)
  {
    if types == [] then []
    else
      var n := KeyName(name, types[0]);
      [CreateKey(n, types[0], true, true), ConfigureKey(n, true)] + CreateRequests(name, types[1..])
  }

  /** The four requests of `createKeys(name)`, symmetric key first. */
  lemma CreateKeyRequestsInOrder(name: string)
    ensures CreateRequests(name, KeyTypes) ==
              [ CreateKey(SymmetricKeyName(name), SymmetricType, true, true),
                ConfigureKey(SymmetricKeyName(name), true),
                CreateKey(AsymmetricKeyName(name), AsymmetricType, true, true),
                ConfigureKey(AsymmetricKeyName(name), true) ]
  {
    var rs := CreateRequests(name, KeyTypes);
    assert rs[0] == CreateKey(SymmetricKeyName(name), SymmetricType, true, true);
    assert rs[2 * 1] == CreateKey(AsymmetricKeyName(name), AsymmetricType, true, true);
    assert rs[2 * 1 + 1] == ConfigureKey(AsymmetricKeyName(name), true);
  }

  /** The state one key reaches once its create and configure requests both went through. */
  predicate KeyReady(before: Engine, after: Engine, n: string, keyType: string) {
    && n in after.keys
    && (n !in before.keys ==> after.keys[n] == KeyConfig(keyType, true, true, true))
    && (n in before.keys ==> after.keys[n] == before.keys[n].(deletionAllowed := true))
  }

  /** The keys outside `names` are exactly as they were. */
  ghost predicate UnchangedOutside(before: Engine, after: Engine, names: set<string>) {
    forall k :: k !in names ==>
      (k in after.keys <==> k in before.keys) && (k in after.keys ==> after.keys[k] == before.keys[k])
  }

  /** The keys other than the user's two are exactly as they were. */
  ghost predicate OthersUnchanged(before: Engine, after: Engine, key: string) {
    UnchangedOutside(before, after, {SymmetricKeyName(key), AsymmetricKeyName(key)})
  }

  /** A request that changes keys only changes one named in `names`. */
  predicate Addresses(r: Request, names: set<string>) {
    Mutating(r) ==> r.name in names
  }

  /** A request sequence that only addresses `names` leaves every other key alone, whether it
      completes or not. */
  lemma {:induction false} RunAllFrame(e: Engine, rs: seq<Request>, names: set<string>)
    requires forall i :: 0 <= i < |rs| ==> Addresses(rs[i], names)
    ensures UnchangedOutside(e, RunAll(e, rs).engine, names)
    decreases |rs|
  {
    if rs != [] {
      match Handle(e, rs[0])
      case Err(_) =>
      case Ok(a) =>
        assert forall i :: 0 <= i < |rs[1..]| ==> Addresses(rs[1..][i], names) by {
          forall i | 0 <= i < |rs[1..]| ensures Addresses(rs[1..][i], names) {
            assert rs[1..][i] == rs[i + 1];
          }
        }
        RunAllFrame(a.engine, rs[1..], names);
    }
  }

  /** A sequence whose first `i` requests went through stops at request `i` when it fails: the
      error is that request's, the engine is as the first `i` requests left it. */
  lemma {:induction false} RunAllStopsAt(e: Engine, rs: seq<Request>, i: nat)
    requires i < |rs| && RunAll(e, rs[..i]).failure.None? && rs[i] in e.outages
    ensures RunAll(e, rs) == Run(RunAll(e, rs[..i]).engine, Some(e.outages[rs[i]]))
  {
    var mid := RunAll(e, rs[..i]);
    var rest := rs[i..];
    assert rs == rs[..i] + rest;
    RunAllAppend(e, rs[..i], rest);
    assert rest[0] == rs[i] && mid.engine.outages == e.outages;
  }

  /** The first request of `rs` that is in an outage. */
  lemma FirstOutage(e: Engine, rs: seq<Request>) returns (i: nat)
    requires exists j :: 0 <= j < |rs| && rs[j] in e.outages
    ensures i < |rs| && rs[i] in e.outages && forall j :: 0 <= j < i ==> rs[j] !in e.outages
  {
    i := 0;
    while rs[i] !in e.outages
      invariant i < |rs|
      invariant forall j :: 0 <= j < i ==> rs[j] !in e.outages
      invariant exists j :: i <= j < |rs| && rs[j] in e.outages
      decreases |rs| - i
    {
      i := i + 1;
    }
  }

  /** Creating then configuring one key of a known type. */
  lemma CreatePairReady(e: Engine, n: string, keyType: string)
    requires Encrypting(keyType) || Signing(keyType)
    requires CreateKey(n, keyType, true, true) !in e.outages && ConfigureKey(n, true) !in e.outages
    ensures var run := RunAll(e, [CreateKey(n, keyType, true, true), ConfigureKey(n, true)]);
            run.failure.None? && KeyReady(e, run.engine, n, keyType) && run.engine.outages == e.outages
            && UnchangedOutside(e, run.engine, {n})
  {
    var rs := [CreateKey(n, keyType, true, true), ConfigureKey(n, true)];
    var a := Handle(e, rs[0]);
    assert a.Ok?;
    var b := Handle(a.value.engine, rs[1]);
    assert b.Ok?;
    assert RunAll(b.value.engine, []) == Run(b.value.engine, None);
    assert rs[1..][1..] == [];
  }

  /** `createKeys(name)`: creates and configures the symmetric key, then the asymmetric one. */
  function CreateKeys(e: Engine, name: string): (run: Run)
    ensures var rs := CreateRequests(name, KeyTypes);
            run.failure.None? <==> forall i :: 0 <= i < |rs| ==> rs[i] !in e.outages
    ensures run.failure.None? ==>
              KeyReady(e, run.engine, SymmetricKeyName(name), SymmetricType)
              && KeyReady(e, run.engine, AsymmetricKeyName(name), AsymmetricType)
    ensures OthersUnchanged(e, run.engine, name)
    ensures run.engine.outages == e.outages
    ensures var rs := CreateRequests(name, KeyTypes);
            forall i :: 0 <= i < |rs| && rs[i] in e.outages && (forall j :: 0 <= j < i ==> rs[j] !in e.outages)
              ==> run == Run(RunAll(e, rs[..i]).engine, Some(e.outages[rs[i]]))
  {
    var rs := CreateRequests(name, KeyTypes);
    CreateKeysFrame(e, name);
    CreateKeysSuccess(e, name);
    CreateKeysFailure(e, name);
    RunAll(e, rs)
  }

  /** Creating one key of a known type that is not in an outage goes through. */
  lemma CreateOneSucceeds(e: Engine, n: string, keyType: string)
    requires Encrypting(keyType) || Signing(keyType)
    requires CreateKey(n, keyType, true, true) !in e.outages
    ensures RunAll(e, [CreateKey(n, keyType, true, true)]).failure.None?
  {
    var r := CreateKey(n, keyType, true, true);
    assert Handle(e, r).Ok?;
    assert [r][1..] == [];
  }

  /** The first `i` requests of `createKeys(name)` go through when none of them is in an outage. */
  lemma CreatePrefixSucceeds(e: Engine, name: string, i: nat)
    requires i <= 4
    requires forall j :: 0 <= j < i ==> CreateRequests(name, KeyTypes)[j] !in e.outages
    ensures RunAll(e, CreateRequests(name, KeyTypes)[..i]).failure.None?
  {
    var rs := CreateRequests(name, KeyTypes);
    CreateKeyRequestsInOrder(name);
    var sym, asym := SymmetricKeyName(name), AsymmetricKeyName(name);
    if i == 1 {
      assert rs[..1] == [CreateKey(sym, SymmetricType, true, true)];
      CreateOneSucceeds(e, sym, SymmetricType);
    } else if i == 2 {
      assert rs[..2] == [CreateKey(sym, SymmetricType, true, true), ConfigureKey(sym, true)];
      CreatePairReady(e, sym, SymmetricType);
    } else if i > 2 {
      var first := [CreateKey(sym, SymmetricType, true, true), ConfigureKey(sym, true)];
      CreatePairReady(e, sym, SymmetricType);
      var mid := RunAll(e, first);
      if i == 3 {
        var second := [CreateKey(asym, AsymmetricType, true, true)];
        assert rs[..i] == first + second;
        RunAllAppend(e, first, second);
        CreateOneSucceeds(mid.engine, asym, AsymmetricType);
      } else {
        var second := [CreateKey(asym, AsymmetricType, true, true), ConfigureKey(asym, true)];
        assert rs[..i] == first + second;
        RunAllAppend(e, first, second);
        CreatePairReady(mid.engine, asym, AsymmetricType);
      }
    }
  }

  /** `createKeys` touches no key but the user's two. */
  lemma CreateKeysFrame(e: Engine, name: string)
    ensures OthersUnchanged(e, RunAll(e, CreateRequests(name, KeyTypes)).engine, name)
  {
    var rs := CreateRequests(name, KeyTypes);
    CreateKeyRequestsInOrder(name);
    RunAllFrame(e, rs, {SymmetricKeyName(name), AsymmetricKeyName(name)});
  }

  /** `createKeys` completes exactly when none of its requests fails, and then both keys are ready. */
  lemma CreateKeysSuccess(e: Engine, name: string)
    ensures var rs := CreateRequests(name, KeyTypes);
            var run := RunAll(e, rs);
            && (run.failure.None? <==> forall i :: 0 <= i < |rs| ==> rs[i] !in e.outages)
            && (run.failure.None? ==>
                  KeyReady(e, run.engine, SymmetricKeyName(name), SymmetricType)
                  && KeyReady(e, run.engine, AsymmetricKeyName(name), AsymmetricType))
  {
    var rs := CreateRequests(name, KeyTypes);
    CreateKeyRequestsInOrder(name);
    var sym, asym := SymmetricKeyName(name), AsymmetricKeyName(name);
    if exists j :: 0 <= j < |rs| && rs[j] in e.outages {
      var i := FirstOutage(e, rs);
      CreatePrefixSucceeds(e, name, i);
      RunAllStopsAt(e, rs, i);
    } else {
      KeyNamesNeverCollide(name, name);
      CreatePairReady(e, sym, SymmetricType);
      var mid := RunAll(e, rs[..2]);
      assert rs[..2] == [rs[0], rs[1]];
      assert rs[2..] == [rs[2], rs[3]];
      assert rs == rs[..2] + rs[2..];
      RunAllAppend(e, rs[..2], rs[2..]);
      CreatePairReady(mid.engine, asym, AsymmetricType);
    }
  }

  /** A failing request of `createKeys` aborts the rest and keeps what the earlier ones did. */
  lemma CreateKeysFailure(e: Engine, name: string)
    ensures var rs := CreateRequests(name, KeyTypes);
            forall i :: 0 <= i < |rs| && rs[i] in e.outages && (forall j :: 0 <= j < i ==> rs[j] !in e.outages)
              ==> RunAll(e, rs) == Run(RunAll(e, rs[..i]).engine, Some(e.outages[rs[i]]))
  {
    var rs := CreateRequests(name, KeyTypes);
    forall i | 0 <= i < |rs| && rs[i] in e.outages && (forall j :: 0 <= j < i ==> rs[j] !in e.outages)
      ensures RunAll(e, rs) == Run(RunAll(e, rs[..i]).engine, Some(e.outages[rs[i]]))
    {
      CreatePrefixSucceeds(e, name, i);
      RunAllStopsAt(e, rs, i);
    }
  }

  /** The requests of `deleteKeys(name)` for the given key types. */
  function DeleteRequests(name: string, types: seq<string>): (rs: seq<Request>)
    ensures |rs| == |types|
    ensures forall i :: 0 <= i < |types| ==> rs[i] == DeleteKey(KeyName(name, types[i]))
  {
    if types == [] then [] else [DeleteKey(KeyName(name, types[0]))] + DeleteRequests(name, types[1..])
  }

  /** The engine will delete `n`: the key exists and its configuration allows deletion. */
  predicate Deletable(e: Engine, n: string) {
    n in e.keys && e.keys[n].deletionAllowed
  }

  /** `deleteKeys(name)`: deletes the user's two keys, symmetric first, and nothing else. */
  function DeleteKeys(e: Engine, name: string): (run: Run)
    ensures run.engine.outages == e.outages
    ensures OthersUnchanged(e, run.engine, name)
    ensures run.engine.keys.Keys <= e.keys.Keys
    ensures forall k :: k in run.engine.keys ==> run.engine.keys[k] == e.keys[k]
    ensures run.failure.None? <==>
              && DeleteKey(SymmetricKeyName(name)) !in e.outages && Deletable(e, SymmetricKeyName(name))
              && DeleteKey(AsymmetricKeyName(name)) !in e.outages && Deletable(e, AsymmetricKeyName(name))
    ensures run.failure.None? ==> run.engine.keys == e.keys - {SymmetricKeyName(name), AsymmetricKeyName(name)}
    ensures run.failure.None? ==> SymmetricKeyName(name) in e.keys && AsymmetricKeyName(name) in e.keys
  {
    DeleteKeysFacts(e, name);
    RunAll(e, DeleteRequests(name, KeyTypes))
  }

  /** The proof of `DeleteKeys`' contract, request by request. */
  lemma DeleteKeysFacts(e: Engine, name: string)
    ensures var run := RunAll(e, DeleteRequests(name, KeyTypes));
            && run.engine.outages == e.outages
            && OthersUnchanged(e, run.engine, name)
            && run.engine.keys.Keys <= e.keys.Keys
            && (forall k :: k in run.engine.keys ==> run.engine.keys[k] == e.keys[k])
            && (run.failure.None? <==>
                  && DeleteKey(SymmetricKeyName(name)) !in e.outages && Deletable(e, SymmetricKeyName(name))
                  && DeleteKey(AsymmetricKeyName(name)) !in e.outages && Deletable(e, AsymmetricKeyName(name)))
            && (run.failure.None? ==> run.engine.keys == e.keys - {SymmetricKeyName(name), AsymmetricKeyName(name)})
            && (run.failure.None? ==> SymmetricKeyName(name) in e.keys && AsymmetricKeyName(name) in e.keys)
  {
    var rs := DeleteRequests(name, KeyTypes);
    var sym, asym := SymmetricKeyName(name), AsymmetricKeyName(name);
    KeyNamesNeverCollide(name, name);
    assert rs == [DeleteKey(sym), DeleteKey(asym)];
    assert rs[1..] == [DeleteKey(asym)];
    assert rs[1..][1..] == [];
    var first := Handle(e, rs[0]);
    if first.Ok? {
      var mid := first.value.engine;
      assert RunAll(e, rs) == RunAll(mid, [DeleteKey(asym)]);
      assert Deletable(mid, asym) == Deletable(e, asym);
      var second := Handle(mid, rs[1]);
      if second.Ok? {
        assert RunAll(mid, [DeleteKey(asym)]) == Run(second.value.engine, None);
      } else {
        assert RunAll(mid, [DeleteKey(asym)]) == Run(mid, Some(second.error));
      }
    }
  }

  /** Deleting the key set of a user who has no encryption key fails at the first request,
      with the engine's rejection, and leaves the engine as it was. */
  lemma DeleteMissingKeysFails(e: Engine, name: string)
    requires SymmetricKeyName(name) !in e.keys
    ensures DeleteKeys(e, name).failure.Some?
    ensures DeleteKeys(e, name).engine == e
  {
    var rs := DeleteRequests(name, KeyTypes);
    assert rs[0] == DeleteKey(SymmetricKeyName(name));
    assert Handle(e, rs[0]).Err?;
  }

  /** Deleting a freshly created key set removes exactly what creation added. */
  lemma CreateThenDelete(e: Engine, name: string)
    requires Healthy(e)
    requires SymmetricKeyName(name) !in e.keys && AsymmetricKeyName(name) !in e.keys
    ensures CreateKeys(e, name).failure.None?
    ensures DeleteKeys(CreateKeys(e, name).engine, name) == Run(e, None)
  {
    var c := CreateKeys(e, name);
    var d := DeleteKeys(c.engine, name);
    assert d.engine.keys == e.keys;
  }

  /** `listKeys()`: the names of all keys. */
  function ListKeys(e: Engine): (r: Result<set<string>, JsError>)
    ensures r.Ok? ==> r.value == e.keys.Keys
    ensures r.Err? ==> Handle(e, ListKeyNames) == Err(r.error)
  {
    var a :- Handle(e, ListKeyNames);
    Ok(a.reply.names)
  }

  // ------------------------------------------------------------------
  // Cryptographic calls: which key each one addresses
  // ------------------------------------------------------------------

  function EncryptRequest(key: string, batch: seq<Base64>): Request {
    EncryptBatch(SymmetricKeyName(key), batch)
  }

  function DecryptRequest(key: string, ciphertext: Blob): Request {
    DecryptOne(SymmetricKeyName(key), ciphertext)
  }

  function SignRequest(key: string, batch: seq<Base64>): Request {
    SignBatch(AsymmetricKeyName(key), HashAlgorithm, batch, MarshalingAlgorithm)
  }

  /** `verify` sends the base64 of the bytes of `content` read as a 'binary' string. */
  function VerifyRequest(key: string, content: string, signature: Blob): Request {
    VerifyOne(AsymmetricKeyName(key), HashAlgorithm, Base64Of(FromBinary(content)), signature, MarshalingAlgorithm)
  }

  /** `encrypt(key, batch_input)`: the engine's batch results, one ciphertext per input, in order,
      each sealed under the user's symmetric key. */
  function Encrypt(e: Engine, key: string, batch: seq<Base64>): (r: Result<seq<Blob>, JsError>)
    ensures r.Ok? <==> EncryptRequest(key, batch) !in e.outages && batch != [] && HasEncryptionKey(e, SymmetricKeyName(key))
    ensures r.Ok? ==> |r.value| == |batch|
                      && forall i :: 0 <= i < |batch| ==> r.value[i] == Sealed(SymmetricKeyName(key), batch[i])
    ensures r.Err? ==> Handle(e, EncryptRequest(key, batch)) == Err(r.error)
  {
    var a :- Handle(e, EncryptRequest(key, batch));
    Ok(a.reply.results)
  }

  /** `decrypt(key, ciphertext)`: succeeds only on a ciphertext sealed under the user's symmetric
      key, and returns its plaintext as a 'binary' string. */
  function Decrypt(e: Engine, key: string, ciphertext: Blob): (r: Result<string, JsError>)
    ensures r.Ok? <==> DecryptRequest(key, ciphertext) !in e.outages
                       && HasEncryptionKey(e, SymmetricKeyName(key))
                       && ciphertext.Sealed? && ciphertext.keyName == SymmetricKeyName(key)
    ensures r.Ok? ==> r.value == ToBinary(ciphertext.plaintext.bytes)
    ensures r.Err? ==> Handle(e, DecryptRequest(key, ciphertext)) == Err(r.error)
  {
    var a :- Handle(e, DecryptRequest(key, ciphertext));
    Ok(ToBinary(a.reply.data.bytes))
  }

  /** `sign(key, batch_input)`: one signature per input, in order, under the user's asymmetric
      key with the fixed hash and signature encoding. */
  function Sign(e: Engine, key: string, batch: seq<Base64>): (r: Result<seq<Blob>, JsError>)
    ensures r.Ok? <==> SignRequest(key, batch) !in e.outages && batch != [] && HasSigningKey(e, AsymmetricKeyName(key))
    ensures r.Ok? ==> |r.value| == |batch|
                      && forall i :: 0 <= i < |batch| ==>
                           r.value[i] == Signed(AsymmetricKeyName(key), HashAlgorithm, MarshalingAlgorithm, batch[i])
    ensures r.Err? ==> Handle(e, SignRequest(key, batch)) == Err(r.error)
  {
    var a :- Handle(e, SignRequest(key, batch));
    Ok(a.reply.results)
  }

  /** `verify(key, content, signature)`: true exactly for the signature the user's asymmetric key
      makes, with the same hash and encoding, over the bytes of `content`; a signature the engine
      cannot parse is rejected rather than answered. */
  function Verify(e: Engine, key: string, content: string, signature: Blob): (r: Result<bool, JsError>)
    ensures r.Ok? <==> VerifyRequest(key, content, signature) !in e.outages
                       && HasSigningKey(e, AsymmetricKeyName(key))
                       && WellFormedSignature(signature, MarshalingAlgorithm)
    ensures r.Ok? ==> (r.value <==> signature == Signed(AsymmetricKeyName(key), HashAlgorithm,
                                                        MarshalingAlgorithm, Base64Of(FromBinary(content))))
    ensures r.Err? ==> Handle(e, VerifyRequest(key, content, signature)) == Err(r.error)
  {
    var a :- Handle(e, VerifyRequest(key, content, signature));
    Ok(a.reply.valid)
  }

  // ------------------------------------------------------------------
  // Round trips and key binding
  // ------------------------------------------------------------------

  /** Encrypt and decrypt address the same symmetric key, sign and verify the same asymmetric
      key with the same hash and encoding. */
  lemma KeyBinding(key: string, batch: seq<Base64>, c: Blob, content: string, s: Blob)
    ensures EncryptRequest(key, batch).name == DecryptRequest(key, c).name == KeyName(key, "aes256-gcm96")
    ensures SignRequest(key, batch).name == VerifyRequest(key, content, s).name == KeyName(key, "ecdsa-p521")
    ensures SignRequest(key, batch).hash == VerifyRequest(key, content, s).hash == "sha2-512"
    ensures SignRequest(key, batch).marshaling == VerifyRequest(key, content, s).marshaling == "asn1"
  {
  }

  /** A ciphertext made by `encrypt` decrypts, under the same user's key, to the bytes it sealed. */
  lemma EncryptDecryptRoundTrip(e: Engine, key: string, b: seq<byte>)
    requires Healthy(e) && Provisioned(e, key)
    ensures Encrypt(e, key, [Base64Of(b)]).Ok?
    ensures Decrypt(e, key, Encrypt(e, key, [Base64Of(b)]).value[0]) == Ok(ToBinary(b))
  {
  }

  /** A signature made by `sign` over some bytes verifies against the decrypted 'binary' string of
      those bytes: `verify` re-encodes the content exactly as it was signed. */
  lemma {:induction false} SignVerifyRoundTrip(e: Engine, key: string, b: seq<byte>)
    requires Healthy(e) && Provisioned(e, key)
    ensures Sign(e, key, [Base64Of(b)]).Ok?
    ensures Verify(e, key, ToBinary(b), Sign(e, key, [Base64Of(b)]).value[0]) == Ok(true)
  {
    BinaryRoundTrip(b);
  }

  /** A ciphertext sealed for one user does not open under another user's key. */
  lemma ForeignCiphertextRejected(e: Engine, owner: string, other: string, p: Base64)
    requires owner != other
    ensures Decrypt(e, other, Sealed(SymmetricKeyName(owner), p)).Err?
  {
    if SymmetricKeyName(owner) == SymmetricKeyName(other) {
      KeyNameInjective(owner, other, SymmetricType);
    }
  }

  /** A signature over different bytes, or by a different user, does not verify. */
  lemma {:induction false} ForeignSignatureRejected(e: Engine, key: string, signer: string, signed: seq<byte>, b: seq<byte>)
    requires Healthy(e) && Provisioned(e, key)
    requires signer != key || signed != b
    ensures Verify(e, key, ToBinary(b),
                   Signed(AsymmetricKeyName(signer), HashAlgorithm, MarshalingAlgorithm, Base64Of(signed))) == Ok(false)
  {
    BinaryRoundTrip(b);
    if signer != key && AsymmetricKeyName(signer) == AsymmetricKeyName(key) {
      KeyNameInjective(signer, key, AsymmetricType);
    }
  }
}

=== FILE: wrappers.dfy ===
/** Failure-compatible Option and Result types shared by every module of the model. */
module Wrappers {

  /** An optional value: JavaScript's `undefined` versus a present value. */
  datatype Option<+T> = None | Some(value: T) {

    /** The value if present, otherwise `default` (the `x || default` idiom on a present/absent value). */
    function GetOr(default: T): T {
      match this
      case Some(v) => v
      case None => default
    }
  }

  /** The outcome of an operation that may throw: a value, or the error it was rejected with. */
  datatype Result<+T, +E> = Ok(value: T) | Err(error: E) {

    predicate IsFailure() {
      Err?
    }

    function PropagateFailure<U>(): Result<U, E>
      requires Err?
    {
      Err(error)
    }

    function Extract(): T
      requires Ok?
    {
      value
    }
  }
}
